=== FILE: README.md ===
# speechapi in Dafny

This project models the client side of `speechapi`, a Python client for a
speech service with sessions and text-to-speech. It covers:

- The error family: `SPBaseError` with `APIRequestError` and
  `APIResponseError`.
- The text-to-speech entities: languages, voices, and the ordered
  one-entry-per-id sets of them.
- The session and the stream configuration built from service answers. This
  includes the transaction id read from the last path segment of the
  WebSocket URL.
- The decision logic of `SessionApi` and `TTSApi`:
  - which statuses are accepted;
  - how a rejected response becomes a request error with the service's
    diagnostics;
  - which fields each answer must carry;
  - how the language and voice lists are built in strict and in skip mode.
- The chunked send and timeout-bounded receive loop of `stream_synthes`.

Every HTTP exchange is replaced by the response it produced: a status, a
reason phrase, and a body that is either a decoded JSON value or "not JSON".
The WebSocket is replaced by a script of receive outcomes: data frames,
CLOSE or CLOSING frames, and timeouts. Base64 decoding is a function the
caller passes in. Python exceptions are `Err` values of one `Error` type. The
Python operators the client relies on are written out with the behaviour
Python gives them:

- `value[key]` raises `TypeError` on anything that is not a dict.
- `key in value` tests elements of a list and substrings of a string.
- `urlparse(...).path` follows CPython's `urlsplit`, plus the `;params`
  split that `urlparse` applies.

Modules, one file each:

| module | file | models |
|---|---|---|
| `Results` | results.dfy | `Option` and `Result` with early return |
| `Json` | json.dfy | decoded JSON values, `value[key]`, `key in value` |
| `Exceptions` | exceptions.dfy | exceptions.py |
| `Tts` | tts.dfy | tts.py |
| `Url` | url.dfy | the part of `urllib.parse.urlparse` that session.py uses |
| `Sessions` | session.dfy | session.py |
| `Api` | api.dfy | the decision logic of api.py, apart from streaming |
| `Streaming` | streaming.dfy | the loop in `TTSApi.stream_synthes` |

Two behaviours of the code are easy to misread, and the model follows the
code in both:

- **Empty transaction id.** The docstring of `_WsConfiguration.__init__`
  (session.py:102-103) promises an `APIResponseError` "if transaction id is
  missing or invalid".
  - The code takes `urlparse(url).path.split("/")[-1]`, which is `""` for
    `wss://host` and for any path ending in `/`. The id is accepted as is.
  - In the model the bare `except:` fires only in two cases: a `url` that is
    not a string, and a netloc with an unmatched square bracket. The
    `urlparse` checks listed under "Left out" can also raise there in
    CPython.
  - See `Sessions.TrailingSlashUrlGivesEmptyTransaction` and
    `Url.UnmatchedBracketIsRejected`.
- **CLOSE frames.** In `stream_synthes` a CLOSE or CLOSING frame ends only
  the inner drain of the current 500-character slice (api.py:472). The
  outer loop still sends the next slice (api.py:465-477). See
  `Streaming.CloseEndsOnlyTheDrain`.

## Model

| member | source | states |
|---|---|---|
| Exceptions.RequestErrorKeepsFields | exceptions.py:16-22 | a request error carries exactly the status, status text, reason and reason description it was given |
| Exceptions.RequestErrorDefaultsToNone | exceptions.py:17 | every field of a request error that is not given is `None` |
| Exceptions.ResponseErrorKeepsKey | exceptions.py:24-27 | a response error carries the key it was given, `None` by default |
| Exceptions.FamilyHasTwoDisjointKinds | exceptions.py:13-27 | both kinds are caught by `except SPBaseError` and are distinct from each other; `KeyError`, `TypeError` and the decode error are not in the family |
| Json.Subscript | tts.py:31-39 | `value[key]` finds the stored value exactly when the value is a dict holding the key, and raises `TypeError` exactly when the value is not a dict |
| Json.KeyIn | api.py:259 | `key in value` is a key test on dicts and raises `TypeError` exactly on values that are not containers |
| Tts.ParseIdName | tts.py:31-39 | `id` is read before `name`; each absent key gives a response error naming that key; a value that is not a dict raises `TypeError` |
| Tts.ParseLanguage | tts.py:74-77 | a language builds exactly when the base fields read, keeps them, and re-raises a base failure with the same key |
| Tts.ParseVoice | tts.py:107-115 | a base failure is re-raised unchanged; otherwise the voice builds exactly when `gender` is present, and a missing gender is reported on `gender` |
| Tts.Parse | tts.py:62-115 | the entity built by a constructor is of the kind asked for |
| Tts.AsMap | tts.py:204-205 | the ordered dictionary's keys are exactly the stored ids |
| Tts.Empty | tts.py:145-149 | a new set is empty, of its kind, and valid |
| Tts.LenCountsIds | tts.py:157-161 | with distinct ids, `len` counts both the entries and the dictionary keys |
| Tts.Len | tts.py:157-161 | with distinct ids, `len` is the number of distinct ids and the number of dictionary keys (proved by `Tts.LenCountsIds`) |
| Tts.Contains | tts.py:163-167 | `v in s` holds exactly when `v` is an entity and some stored entity has the same id, whatever its other fields |
| Tts.GetItem | tts.py:169-173 | `s[key]` fails with `KeyError(key)` exactly when no stored entity has that id |
| Tts.AsMapFindsEntry | tts.py:169-173 | with distinct ids, the dictionary maps every stored id to its own entity |
| Tts.GetItemAgreesWithGetById | tts.py:220-235 | indexing by id and searching by id return the same entity or the same `KeyError` |
| Tts.Add | tts.py:192-207 | an entity is appended exactly when its id is new; a present id raises `KeyError(id)`; distinct ids stay distinct |
| Tts.AddTyped | tts.py:280-282 | an entity of the wrong kind raises `TypeError` before the duplicate check; a valid set stays valid |
| Tts.RemoveId | tts.py:218 | no entry left after removal has the removed id, and the set never grows |
| Tts.RemoveIdKeepsOthers | tts.py:218 | removal keeps exactly the entries whose id differs |
| Tts.Remove | tts.py:209-218 | after `remove` no entity with that id is a member; every other entry stays; the kind is unchanged |
| Tts.RemoveDeletesOneEntry | tts.py:218 | with distinct ids, removing a stored id deletes exactly that position; the order of the rest is kept |
| Tts.RemoveAbsentIsNoOp | tts.py:218 | removing an absent id changes nothing and raises nothing |
| Tts.RemoveKeepsValid | tts.py:209-218 | removal keeps ids distinct and the kind uniform |
| Tts.AddThenRemoveRestores | tts.py:192-218 | adding a fresh entity and then removing it gives back the original set |
| Tts.AddedEntityIsFound | tts.py:204-205 | after a successful add the entity is a member, `get_by_id` finds it, and the length grew by one |
| Tts.FirstIndex | tts.py:232-235 | the position found holds a match, no earlier position does, and there is none exactly when nothing matches |
| Tts.FindFirst | tts.py:220-252 | the lookup returns the first entity in insertion order whose field matches, or `KeyError(key)` exactly when none does |
| Tts.GetById | tts.py:220-235 | `get_by_id` raises `KeyError(id)` exactly when the id is not stored, and otherwise returns a stored entity with that id (agreement with indexing: `Tts.GetItemAgreesWithGetById`) |
| Tts.GetByName | tts.py:237-252 | `get_by_name` returns the first stored entity with that name, in insertion order, and raises `KeyError(name)` exactly when none has it (see `Tts.NameLookupReturnsFirst`) |
| Tts.NameLookupReturnsFirst | tts.py:249-252 | names may repeat, and `get_by_name` returns the earlier of two entities with the same name |
| Tts.CollectFrom | tts.py:182-190 | from iterator state `i`, `__next__` yields exactly the entries after position `i`, then stops |
| Tts.Next | tts.py:182-190 | `__next__` gives the entry after the cursor and advances it by one, and stops exactly when the cursor is at the last entry or past it |
| Tts.Collect | tts.py:175-190 | calling `__next__` until it stops yields exactly the entries after the cursor, in order, and nothing from a cursor past the end (see `Tts.CollectFrom`) |
| Tts.IterationYieldsEntriesInOrder | tts.py:175-190 | a loop over the set sees every entity once, in insertion order |
| Url.UrlPath | session.py:111 | a parsed path never holds `?` or `#` |
| Url.DropParams | session.py:111 | for a scheme in `uses_params` the result keeps everything up to the last `/` and cuts the last segment at its first `;`, as `_splitparams` does; for any other scheme, or with no `;`, the path is unchanged; the result is always a prefix of the path |
| Url.LastSegment | session.py:111 | `split("/")[-1]` is a suffix of the path, holds no `/`, and follows a `/` unless it is the whole path |
| Url.LastSegmentIsUnique | session.py:111 | any `/`-free suffix that starts the path or follows a `/` is the last segment |
| Url.TrailingSlashGivesEmptySegment | session.py:111 | a path ending in `/` has an empty last segment, not an error |
| Url.PathOfPlainUrl | session.py:111 | for `scheme://host/path?query#fragment` the parsed path is exactly `/path`; a `;` stays in it when the scheme does not use params |
| Url.UnmatchedBracketIsRejected | session.py:110-113 | a netloc with only one kind of square bracket makes the parse fail |
| Url.StreamUrlExample | session.py:111 | `wss://host/stream/abc123` has the path `/stream/abc123` |
| Sessions.NewSession | session.py:27-32 | `session_id` is required (a response error on it otherwise); the session keeps it; a new session is active exactly when its id is not `""` |
| Sessions.WithActivity | api.py:203-204 | a status update replaces only the flag; the id never changes |
| Sessions.NewWsConfig | session.py:105-114 | `url` is required; a body that is not a dict raises `TypeError`; for a dict every failure, whether the key is absent, the value is not a string, or `urlparse` rejects it, is a response error on `url`; on success the URL and session are kept and the transaction id is exactly the last `/`-segment of the URL's path |
| Sessions.TrailingSlashUrlGivesEmptyTransaction | session.py:110-113 | a URL whose path ends in `/` gives an empty transaction id without error |
| Sessions.TransactionIdOfPlainUrl | session.py:105-114 | for `scheme://host/dir/id` the configuration keeps the URL and the transaction id is `id` |
| Api.GetApiResponse | api.py:49-54 | a response is accepted exactly when its status is listed, falling back to `[200]`; otherwise the request error for it is raised |
| Api.StatusAcceptance | api.py:49-51 | by default only 200 is accepted, deletion takes 200 or 204, and an empty list accepts nothing |
| Api.RaiseForApi | api.py:68-81 | a request error always carries status and reason phrase; it carries `reason` and `message` only when both can be read, and `""` for both otherwise |
| Api.DiagnosticsExample | api.py:68-81 | a rejected creation with `{"reason": "R1", "message": "bad domain"}` reports both; a body that is not JSON reports two empty strings |
| Api.Decode | api.py:201 | an accepted body decodes exactly when it is JSON |
| Api.ReadRequired | api.py:202-206 | a present key gives its value; an absent key gives a response error naming it; a body that is not a dict always fails: on the key when Python's `in` says no, and with `TypeError` when `in` raises or says yes and the subscript raises |
| Api.ReadOptional | api.py:420-423 | an absent key gives `None` rather than an error; a body that is not a dict gives `None` exactly when Python's `in` says no, and `TypeError` otherwise |
| Api.OptionalReadExtendsRequiredRead | api.py:420-423 | the optional read gives the value exactly when the required read does, turns only its missing-key error into `None`, and passes every other error on |
| Api.SessionStatus | api.py:195-206 | `is_active` is required; the session gets exactly the reported value, whatever its type, and that value is returned; a list or string body fails on `is_active` or with `TypeError`, as `in` and the subscript decide, and never succeeds |
| Api.SessionCreate | api.py:144-158 | a rejected creation raises its request error; an undecodable body raises the decode error; otherwise the outcome is that of building the session from the answer and then refreshing its flag through `session_status`, with each step's error passed on |
| Api.CreatedSessionFromValidAnswers | api.py:144-158 | two accepted answers carrying `session_id` and `is_active` always give the session with that id and that flag |
| Api.SessionDelete | api.py:172-178 | deletion accepts 200 or 204 without reading the body, then refreshes the flag from the status report; the id is unchanged |
| Api.DeletedSessionReportsInactive | api.py:172-178 | after a 204 with no body and a report of `is_active: false`, the same session comes back inactive |
| Api.GetData | api.py:258-262 | `data` is required; it is returned as is, or base64-decoded when `bin` is set; a body that is not a dict never succeeds and fails on `data` exactly when `in` says no |
| Api.PackageSynthes | api.py:356-370 | a rejected synthesis raises the request error; an accepted one gives the `data` field |
| Api.OpenSynthesStream | api.py:387-400 | a rejected status raises the request error; an accepted answer that is not JSON raises the decode error; an accepted JSON answer becomes the stream configuration for the same session |
| Api.CloseSynthesStream | api.py:414-423 | a rejected status raises the request error; an accepted answer that is not JSON raises the decode error; `synthesize_text_size` is returned when present and `None` when absent; a body that is not a dict gives `None` exactly when `in` says no, and `TypeError` otherwise |
| Api.SurvivorIds | api.py:288-293 | the list built so far holds exactly the ids of all items that built an entity |
| Api.SurvivorsValid | api.py:288-294 | the list built is always a valid set of the requested kind |
| Api.AddItemStep | api.py:289-293 | one step adds an item exactly when it builds and its id is new; otherwise it raises that item's error |
| Api.AddItem | api.py:289-291 | one `try` body: a parse error is raised as is; a built entity never fails the kind check and is added exactly as `_add` does; a valid set stays valid (the loop step: `Api.AddItemStep`) |
| Api.BuildEntitySet | api.py:288-294 | the loop returns the survivors in skip mode; in strict mode it returns the first failure, or the survivors when there is none |
| Api.GetEntities | api.py:279-294 | the body must decode and be a list; a string or dict body builds nothing; a scalar raises `TypeError` even in skip mode; any result is a valid set |
| Api.NonObjectsBuildNothing | api.py:288-292 | items that are not dicts build nothing, and each fails with `TypeError` |
| Api.StrictListIsAllOrNothing | api.py:323-328 | without skipping, the list is built exactly when every item survives, and then holds every item's entity in input order |
| Api.AllKeptMeansAllBuilt | api.py:288-293 | when every item survives, the list holds one entity per item, in order |
| Api.StrictListFailsAtFirstBadItem | api.py:291-293 | without skipping, the error is the one raised by the first item that does not survive |
| Api.SkipListMembers | api.py:323-328 | with skipping, an entity is listed exactly when some item builds it and no earlier item built the same id |
| Api.AddressName | api.py:315 | a language or voice is addressed by its name, never its id; a string is used as given |
| Api.HandleAndNameAddressAlike | api.py:360 | passing an entity and passing its name string address the same voice |
| Streaming.EmptyTextDoesNothing | api.py:465 | empty text sends nothing and yields nothing |
| Streaming.SentSlicesCoverText | api.py:465-477 | the text goes out in `ceil(n/500)` slices; slice `k` is characters `500k` to `min(500k+500, n)`; each slice has 1 to 500 characters; together they spell the text |
| Streaming.DrainReadsFirstCut | api.py:468-475 | one drain reads frames up to and including the first non-data frame or timeout, and yields the data before it |
| Streaming.Drain | api.py:468-475 | a drain on a non-empty script consumes at least one frame and yields at most one payload per frame consumed (the exact frames: `Streaming.DrainReadsFirstCut`) |
| Streaming.Run | api.py:465-477 | a run sends nothing exactly when the text is empty, never more slices than characters, and first sends `text[:500]` (all slices: `Streaming.SentSlicesCoverText`; all output: `Streaming.YieldedIsDataOfFramesRead`) |
| Streaming.YieldedIsDataOfFramesRead | api.py:465-477 | the data yielded is every data payload read, in order, up to the frame that ends the last slice's drain |
| Streaming.OneSliceYieldsUntilTimeout | api.py:468-475 | a text of one slice yields exactly the data frames that arrive before the first timeout |
| Streaming.CloseEndsOnlyTheDrain | api.py:472-477 | a CLOSE frame ends only the current drain; the next slice is still sent, and later data is still yielded |

## Left out

- HTTP and WebSocket transport: connection setup and teardown, headers,
  request bodies, URLs of the endpoints, `aiohttp` sessions and the async
  context managers (`__aenter__`/`__aexit__` of sessions and stream
  configurations), and the final `ws.close()` when the socket is still open
  after the last slice. Each exchange is replaced by its response or by a
  script of receive outcomes.
- JSON and base64 decoding. A body is given already decoded, or as "not
  JSON". Base64 is a function parameter. `_raise_for_api` reads the body
  with `aiohttp`'s `resp.json()`, which also fails on a wrong content type.
  The model does not tell that apart from a body that is not JSON: both give
  empty diagnostics.
- JSON numbers are integers only. Python's `True == 1` and `1 == 1.0`
  equalities are not modelled, so ids of those values compare as different.
- Ids that Python cannot hash (lists, dicts). Python raises `TypeError` for
  such an id in all four dictionary operations: insertion, `v in s`, `s[key]`
  and `remove`. The model's `Tts.Add`, `Tts.Contains`, `Tts.GetItem` and
  `Tts.Remove` compare such ids like any other value and return a result.
- Exception message texts: `"language %s" % ex`, and the `KeyError` texts
  `"Entity with id '%s' ..."`. A `KeyError` carries the id or name, not its
  message.
- `urlparse` details that cannot matter for a service URL:
  - stripping leading C0 control characters and spaces;
  - removing tab, CR and LF;
  - the bracketed-host validation;
  - the NFKC netloc check.

  These depend on the Python version.
- Url.UrlPath: its own contract states only that a path holds no `?` or
  `#`. The exact path is stated for plain `scheme://host/path` URLs by
  `Url.PathOfPlainUrl`, and the bracket failure by
  `Url.UnmatchedBracketIsRejected`.
- Api.AddressName: `str()` of an entity of the other kind (a voice passed
  as a language) is not modelled; the result is `None`.
- `print(ex)` in skip mode, `__str__`/`__repr__` of every class, the
  singleton `__new__` of `SessionApi` and `TTSApi`, `_Session.update_status`
  (the same assignment as `Sessions.WithActivity`), the commented-out
  streaming variants, `__init__.py` and the example scripts.
- Sessions.NewWsConfig: the configuration holds a copy of the session.
  `_WsConfiguration` shares the `_Session` object, so a later flag refresh
  would show through `wsconfig.session`. Only the session's id is read from
  it, and the id never changes.
- The shared `_index` iterator state: two nested loops over one set share a
  single cursor in Python. The model threads the cursor explicitly.
- Streaming.Run: what `aiohttp` does on a CLOSED or ERROR message, or on a
  send after the peer closed. Every frame other than CLOSE and CLOSING is a
  data frame whose payload is yielded. Text payloads are not told apart
  from binary ones. Abandoning the generator early, and the two-second
  timeout as a duration, are not modelled.
- Api.GetEntities: a dict body is iterated by its keys, which are strings.
  The model does not enumerate the keys. Every key fails with `TypeError`,
  so the result (empty in skip mode, the first `TypeError` otherwise)
  does not depend on their order.

=== FILE: api.dfy ===
/** The decision logic of the HTTP layer (`_get_api_response`,
    `_raise_for_api`, `SessionApi`, `TTSApi`), with every HTTP exchange
    replaced by the response it produced. */
module Api {
  import opened Results
  import opened Json
  import opened Exceptions
  import opened Tts
  import opened Sessions

  /** An HTTP response as the client reads it: status code, reason phrase, and
      the body decoded as JSON (`None` when the body is not JSON). */
  datatype Response = Response(status: int, reason: string, body: Option<Json>)

  /** The `ok_statuses` every call but session deletion uses. */
  const DefaultOkStatuses: seq<int> := [200]

  /** Deletion of a session accepts both answers the service gives. */
  const DeleteOkStatuses: seq<int> := [200, 204]

  /** The `ok_statuses` argument: `Some(list)` for a list or tuple, `None` for
      anything else, which falls back to `[200]`. */
  function EffectiveOkStatuses(okStatuses: Option<seq<int>>): seq<int>
  {
    okStatuses.GetOr(DefaultOkStatuses)
  }

  /** Whether the service reported both diagnostics: a JSON object body with
      both `reason` and `message`. */
  predicate HasDiagnostics(body: Option<Json>)
  {
    body.Some? && body.value.Object? && "reason" in body.value.fields && "message" in body.value.fields
  }

  /** `_raise_for_api`: the request error for a rejected response. The two
      diagnostics start as `""` and are replaced together, only when both keys
      can be read; any failure while reading them is swallowed. */
  function RaiseForApi(resp: Response): (e: SpError)
    ensures e.ApiRequestError?
    ensures e.status == Some(resp.status) && e.statusText == Some(resp.reason)
    ensures HasDiagnostics(resp.body) ==>
              e.apiReason == Some(resp.body.value.fields["reason"])
              && e.apiReasonDesc == Some(resp.body.value.fields["message"])
    ensures !HasDiagnostics(resp.body) ==>
              e.apiReason == Some(Str("")) && e.apiReasonDesc == Some(Str(""))
  {
    var diagnostics :=
      match resp.body
      case None => (Str(""), Str(""))
      case Some(j) =>
        match (Subscript(j, "reason"), Subscript(j, "message"))
        case (Found(reason), Found(message)) => (reason, message)
        case _ => (Str(""), Str(""));
    RequestError(Some(resp.status), Some(resp.reason), Some(diagnostics.0), Some(diagnostics.1))
  }

  /** `_get_api_response`: the body of an accepted response, or the request error. */
  function GetApiResponse(resp: Response, okStatuses: Option<seq<int>>): (r: Result<Option<Json>, Error>)
    ensures r.Ok? <==> resp.status in EffectiveOkStatuses(okStatuses)
    ensures r.Ok? ==> r.value == resp.body
    ensures r.Err? ==> r.error == Sp(RaiseForApi(resp))
  {
    if resp.status in EffectiveOkStatuses(okStatuses) then Ok(resp.body)
    else Err(Sp(RaiseForApi(resp)))
  }

  /** `json.loads` on an accepted body. */
  function Decode(body: Option<Json>): (r: Result<Json, Error>)
    ensures r.Ok? <==> body.Some?
    ensures r.Ok? ==> r.value == body.value
    ensures r.Err? ==> r.error == DecodeError
  {
    match body
    case Some(j) => Ok(j)
    case None => Err(DecodeError)
  }

  /** The required-field idiom `if key in body: body[key] else raise
      APIResponseError(key=key)`, with Python's `in` and subscription. */
  function ReadRequired(body: Json, key: string): (r: Result<Json, Error>)
    ensures body.Object? && key in body.fields ==> r == Ok(body.fields[key])
    ensures body.Object? && key !in body.fields ==> r == Err(MissingKey(key))
    ensures !body.Object? ==> r.Err?
    ensures !body.Object? ==> r.error == if KeyIn(body, key) == Some(false) then MissingKey(key) else TypeError
    ensures r.Err? ==> r.error == MissingKey(key) || r.error == TypeError
  {
    var present := KeyIn(body, key);
    var lookup := Subscript(body, key);
    if present == Some(true) && lookup.Found? then Ok(lookup.value)
    else if present == Some(false) then Err(MissingKey(key))
    else Err(TypeError)
  }

  /** The optional-field idiom `body[key] if key in body else None`. */
  function ReadOptional(body: Json, key: string): (r: Result<Option<Json>, Error>)
    ensures body.Object? ==> r == Ok(if key in body.fields then Some(body.fields[key]) else None)
    ensures !body.Object? && r.Ok? ==> r.value == None
    ensures !body.Object? ==> (r.Ok? <==> KeyIn(body, key) == Some(false))
    ensures r.Err? ==> r.error == TypeError
  {
    var present := KeyIn(body, key);
    var lookup := Subscript(body, key);
    if present == Some(true) && lookup.Found? then Ok(Some(lookup.value))
    else if present == Some(false) then Ok(None)
    else Err(TypeError)
  }

  /** The two read idioms agree: the optional read succeeds with the value
      exactly when the required read does, and turns only the required read's
      missing-key error into `None`. */
  lemma OptionalReadExtendsRequiredRead(body: Json, key: string)
    ensures ReadOptional(body, key) ==
              match ReadRequired(body, key)
              case Ok(v) => Ok(Some(v))
              case Err(e) => if e == MissingKey(key) then Ok(None) else Err(e)
  {
  }

  // ---------------------------------------------------------------------------
  // SessionApi
  // ---------------------------------------------------------------------------

  /** `session_status`: reads `is_active`, stores it in the session and returns
      it. The result pairs the updated session with the returned flag. */
  function SessionStatus(s: Session, resp: Response): (r: Result<(Session, Json), Error>)
    ensures resp.status !in DefaultOkStatuses ==> r == Err(Sp(RaiseForApi(resp)))
    ensures resp.status in DefaultOkStatuses && resp.body.None? ==> r == Err(DecodeError)
    ensures resp.status in DefaultOkStatuses && resp.body.Some? && resp.body.value.Object? ==>
              var f := resp.body.value.fields;
              r == if "is_active" in f then Ok((s.(isActive := f["is_active"]), f["is_active"]))
                   else Err(MissingKey("is_active"))
    ensures resp.status in DefaultOkStatuses && resp.body.Some? && !resp.body.value.Object? ==>
              r == Err(if KeyIn(resp.body.value, "is_active") == Some(false) then MissingKey("is_active") else TypeError)
    ensures r.Ok? ==> r.value.0.sessionId == s.sessionId && r.value.0.isActive == r.value.1
  {
    var text :- GetApiResponse(resp, None);
    var body :- Decode(text);
    var active :- ReadRequired(body, "is_active");
    Ok((WithActivity(s, active), active))
  }

  /** `session_create`: builds the session from the first response, then
      refreshes its flag through `session_status` with the second. */
  function SessionCreate(createResp: Response, statusResp: Response): (r: Result<Session, Error>)
    ensures createResp.status !in DefaultOkStatuses ==> r == Err(Sp(RaiseForApi(createResp)))
    ensures createResp.status in DefaultOkStatuses && createResp.body.None? ==> r == Err(DecodeError)
    ensures createResp.status in DefaultOkStatuses && createResp.body.Some? ==>
              r == match NewSession(createResp.body.value)
                   case Err(e) => Err(e)
                   case Ok(s) =>
                     match SessionStatus(s, statusResp)
                     case Ok((s', _)) => Ok(s')
                     case Err(e) => Err(e)
    ensures r.Ok? ==> createResp.body.Some? && createResp.body.value.Object?
                      && "session_id" in createResp.body.value.fields
                      && r.value.sessionId == createResp.body.value.fields["session_id"]
    ensures r.Ok? ==> statusResp.body.Some? && statusResp.body.value.Object?
                      && "is_active" in statusResp.body.value.fields
                      && r.value.isActive == statusResp.body.value.fields["is_active"]
  {
    var text :- GetApiResponse(createResp, None);
    var body :- Decode(text);
    var session :- NewSession(body);
    var status :- SessionStatus(session, statusResp);
    Ok(status.0)
  }

  /** Valid answers always yield a session: the id from the creation answer
      and the flag from the status answer, whatever their JSON types. */
  lemma CreatedSessionFromValidAnswers(id: Json, active: Json, createFields: map<string, Json>,
                                       statusFields: map<string, Json>, reason: string)
    requires "session_id" in createFields && createFields["session_id"] == id
    requires "is_active" in statusFields && statusFields["is_active"] == active
    ensures SessionCreate(Response(200, reason, Some(Object(createFields))),
                          Response(200, reason, Some(Object(statusFields))))
         == Ok(Session(id, active))
  {
  }

  /** `session_delete`: accepts 200 or 204 without reading the body, then
      refreshes the flag through `session_status`. */
  function SessionDelete(s: Session, deleteResp: Response, statusResp: Response): (r: Result<Session, Error>)
    ensures deleteResp.status !in DeleteOkStatuses ==> r == Err(Sp(RaiseForApi(deleteResp)))
    ensures deleteResp.status in DeleteOkStatuses ==> r == match SessionStatus(s, statusResp)
                                                       case Ok((s', _)) => Ok(s')
                                                       case Err(e) => Err(e)
    ensures r.Ok? ==> r.value.sessionId == s.sessionId
  {
    var _ :- GetApiResponse(deleteResp, Some(DeleteOkStatuses));
    var status :- SessionStatus(s, statusResp);
    Ok(status.0)
  }

  /** Deleting a session does not read the deletion's body (a 204 has none);
      when the service then reports `is_active: false` the same session comes
      back inactive. */
  lemma DeletedSessionReportsInactive(s: Session, status: int, reason: string)
    requires status == 200 || status == 204
    ensures var report := Response(200, "OK", Some(Object(map["is_active" := Bool(false)])));
      SessionDelete(s, Response(status, reason, None), report) == Ok(Session(s.sessionId, Bool(false)))
  {
  }

  // ---------------------------------------------------------------------------
  // TTSApi: fields of a response
  // ---------------------------------------------------------------------------

  /** What `_getdata` returns: the `data` value itself, or its base64 decoding. */
  datatype Data = Text(value: Json) | Binary(bytes: Bytes)

  /** `_getdata`: the `data` field, decoded by `base64` when `bin` is set. */
  function GetData(body: Option<Json>, bin: bool, base64: Json -> Result<Bytes, Error>): (r: Result<Data, Error>)
    ensures body.None? ==> r == Err(DecodeError)
    ensures body.Some? && body.value.Object? && "data" !in body.value.fields ==> r == Err(MissingKey("data"))
    ensures body.Some? && body.value.Object? && "data" in body.value.fields ==>
              var d := body.value.fields["data"];
              r == if !bin then Ok(Text(d))
                   else match base64(d) case Ok(bytes) => Ok(Binary(bytes)) case Err(e) => Err(e)
    ensures body.Some? && !body.value.Object? ==>
              r == Err(if KeyIn(body.value, "data") == Some(false) then MissingKey("data") else TypeError)
  {
    var j :- Decode(body);
    var d :- ReadRequired(j, "data");
    if !bin then Ok(Text(d))
    else
      var bytes :- base64(d);
      Ok(Binary(bytes))
  }

  /** `package_synthes`: one synthesis request, answered in `data`. */
  function PackageSynthes(resp: Response, bin: bool, base64: Json -> Result<Bytes, Error>): (r: Result<Data, Error>)
    ensures resp.status !in DefaultOkStatuses ==> r == Err(Sp(RaiseForApi(resp)))
    ensures resp.status in DefaultOkStatuses ==> r == GetData(resp.body, bin, base64)
  {
    var text :- GetApiResponse(resp, None);
    GetData(text, bin, base64)
  }

  /** `open_synthes_stream`: the stream configuration from the answer. */
  function OpenSynthesStream(s: Session, resp: Response): (r: Result<WsConfig, Error>)
    ensures resp.status !in DefaultOkStatuses ==> r == Err(Sp(RaiseForApi(resp)))
    ensures resp.status in DefaultOkStatuses && resp.body.None? ==> r == Err(DecodeError)
    ensures resp.status in DefaultOkStatuses && resp.body.Some? ==> r == NewWsConfig(resp.body.value, s)
    ensures r.Ok? ==> r.value.session == s
  {
    var text :- GetApiResponse(resp, None);
    var body :- Decode(text);
    NewWsConfig(body, s)
  }

  /** `close_synthes_stream`: the optional `synthesize_text_size`; its absence is not an error. */
  function CloseSynthesStream(config: WsConfig, resp: Response): (r: Result<Option<Json>, Error>)
    ensures resp.status !in DefaultOkStatuses ==> r == Err(Sp(RaiseForApi(resp)))
    ensures resp.status in DefaultOkStatuses && resp.body.None? ==> r == Err(DecodeError)
    ensures resp.status in DefaultOkStatuses && resp.body.Some? && resp.body.value.Object? ==>
              var f := resp.body.value.fields;
              r == Ok(if "synthesize_text_size" in f then Some(f["synthesize_text_size"]) else None)
    ensures resp.status in DefaultOkStatuses && resp.body.Some? && !resp.body.value.Object? ==>
              r == if KeyIn(resp.body.value, "synthesize_text_size") == Some(false) then Ok(None) else Err(TypeError)
  {
    var text :- GetApiResponse(resp, None);
    var body :- Decode(text);
    ReadOptional(body, "synthesize_text_size")
  }

  // ---------------------------------------------------------------------------
  // TTSApi: building the language and voice lists
  // ---------------------------------------------------------------------------

  /** Item `i` survives when it builds and no earlier item built an entity with
      the same id. */
  predicate Keep(kind: Kind, items: seq<Json>, i: nat)
    requires i < |items|
  {
    Parse(kind, items[i]).Ok?
    && forall j | 0 <= j < i ::
         Parse(kind, items[j]).Ok? ==> Parse(kind, items[j]).value.id != Parse(kind, items[i]).value.id
  }

  /** The surviving entities among the first `n` items, in input order. */
  function Survivors(kind: Kind, items: seq<Json>, n: nat): seq<Entity>
    requires n <= |items|
  {
    if n == 0 then []
    else Survivors(kind, items, n - 1) + (if Keep(kind, items, n - 1) then [Parse(kind, items[n - 1]).value] else [])
  }

  /** The exception a non-surviving item raises: its own construction error,
      or the `KeyError` of the duplicate id. */
  function FailureAt(kind: Kind, items: seq<Json>, i: nat): Error
    requires i < |items|
  {
    var p := Parse(kind, items[i]);
    if p.Err? then p.error else KeyError(p.value.id)
  }

  /** The first item at or after `from` that does not survive, or `|items|`. */
  function FirstUnkept(kind: Kind, items: seq<Json>, from: nat): (r: nat)
    requires from <= |items|
    ensures from <= r <= |items|
    ensures forall j | from <= j < r :: Keep(kind, items, j)
    ensures r < |items| ==> !Keep(kind, items, r)
    decreases |items| - from
  {
    if from == |items| || !Keep(kind, items, from) then from else FirstUnkept(kind, items, from + 1)
  }

  /** What building a list must produce: in skip mode the survivors; otherwise
      the survivors if every item survives, else the first failure. */
  function ListOutcome(kind: Kind, items: seq<Json>, skip: bool): Result<EntitySet, Error>
  {
    var k := FirstUnkept(kind, items, 0);
    if skip || k == |items| then Ok(EntitySet(kind, Survivors(kind, items, |items|)))
    else Err(FailureAt(kind, items, k))
  }

  /** The ids of built items. */
  function BuiltIds(kind: Kind, items: seq<Json>, n: nat): set<Json>
    requires n <= |items|
  {
    set j | 0 <= j < n && Parse(kind, items[j]).Ok? :: Parse(kind, items[j]).value.id
  }

  /** Building one more item adds its id, when it builds. */
  lemma BuiltIdsStep(kind: Kind, items: seq<Json>, n: nat)
    requires 0 < n <= |items|
    ensures var p := Parse(kind, items[n - 1]);
      BuiltIds(kind, items, n) == BuiltIds(kind, items, n - 1) + (if p.Ok? then {p.value.id} else {})
  {
  }

  /** The survivors hold exactly the ids of all items built so far. */
  lemma {:induction false} SurvivorIds(kind: Kind, items: seq<Json>, n: nat)
    requires n <= |items|
    ensures Ids(Survivors(kind, items, n)) == BuiltIds(kind, items, n)
    decreases n
  {
    if n > 0 {
      SurvivorIds(kind, items, n - 1);
      var prev := Survivors(kind, items, n - 1);
      var cur := Survivors(kind, items, n);
      var p := Parse(kind, items[n - 1]);
      var extra := if Keep(kind, items, n - 1) then [p.value] else [];
      var added := if Keep(kind, items, n - 1) then {p.value.id} else {};
      assert cur == prev + extra;
      IdsAppend(prev, extra);
      assert Ids(extra) == added by {
        if Keep(kind, items, n - 1) { assert extra[0] == p.value; }
      }
      BuiltIdsStep(kind, items, n);
      if p.Ok? && !Keep(kind, items, n - 1) {
        var j :| 0 <= j < n - 1 && Parse(kind, items[j]).Ok? && Parse(kind, items[j]).value.id == p.value.id;
        assert p.value.id in BuiltIds(kind, items, n - 1);
      }
    }
  }

  /** The survivors form a valid set of the requested kind. */
  lemma {:induction false} SurvivorsValid(kind: Kind, items: seq<Json>, n: nat)
    requires n <= |items|
    ensures Valid(EntitySet(kind, Survivors(kind, items, n)))
    decreases n
  {
    if n > 0 {
      SurvivorsValid(kind, items, n - 1);
      SurvivorIds(kind, items, n - 1);
      var prev := Survivors(kind, items, n - 1);
      if Keep(kind, items, n - 1) {
        var e := Parse(kind, items[n - 1]).value;
        assert e.id !in BuiltIds(kind, items, n - 1);
        assert forall i | 0 <= i < |prev| :: prev[i].id in Ids(prev);
        var cur := prev + [e];
        assert forall i | 0 <= i < |prev| :: cur[i] == prev[i];
      }
    }
  }

  /** The body of the `try` in the loop: build the item, then add it with the
      typed `_add`. */
  function AddItem(s: EntitySet, item: Json): (r: Result<EntitySet, Error>)
    ensures Parse(s.kind, item).Err? ==> r == Err(Parse(s.kind, item).error)
    ensures Parse(s.kind, item).Ok? ==> r == Add(s, Parse(s.kind, item).value)
    ensures Valid(s) && r.Ok? ==> Valid(r.value)
  {
    var e :- Parse(s.kind, item);
    AddTyped(s, e)
  }

  /** One loop step over the survivors so far: it succeeds exactly when the
      item survives, extends the survivors, and otherwise raises the item's failure. */
  lemma AddItemStep(kind: Kind, items: seq<Json>, i: nat)
    requires i < |items|
    ensures var step := AddItem(EntitySet(kind, Survivors(kind, items, i)), items[i]);
      && (step.Ok? <==> Keep(kind, items, i))
      && (step.Ok? ==> step.value == EntitySet(kind, Survivors(kind, items, i + 1)))
      && (step.Err? ==> step.error == FailureAt(kind, items, i))
  {
    SurvivorIds(kind, items, i);
    var prev := Survivors(kind, items, i);
    var p := Parse(kind, items[i]);
    if p.Ok? {
      var e := p.value;
      assert (forall k | 0 <= k < |prev| :: prev[k].id != e.id) <==> e.id !in Ids(prev);
    }
  }

  /** The loop of `get_languages` and `get_voices`: build and add each item in
      turn; in skip mode a failing item is dropped, otherwise its exception
      propagates. */
  method BuildEntitySet(kind: Kind, items: seq<Json>, skip: bool) returns (r: Result<EntitySet, Error>)
    ensures r == ListOutcome(kind, items, skip)
  {
    var built := Empty(kind);
    var i := 0;
    while i < |items|
      invariant 0 <= i <= |items|
      invariant built == EntitySet(kind, Survivors(kind, items, i))
      invariant !skip ==> forall j | 0 <= j < i :: Keep(kind, items, j)
    {
      AddItemStep(kind, items, i);
      var step := AddItem(built, items[i]);
      if step.Ok? {
        built := step.value;
      } else if !skip {
        assert FirstUnkept(kind, items, 0) == i;
        return Err(step.error);
      } else {
        assert Survivors(kind, items, i + 1) == Survivors(kind, items, i) + [];
      }
      i := i + 1;
    }
    assert !skip ==> FirstUnkept(kind, items, 0) == |items|;
    return Ok(built);
  }

  /** `get_languages` / `get_voices` after the request: the body must decode;
      a list is built item by item; iterating a string or an object yields
      strings, none of which builds an entity; any other value is not
      iterable, which escapes even in skip mode. */
  method GetEntities(kind: Kind, resp: Response, skip: bool) returns (r: Result<EntitySet, Error>)
    ensures resp.status !in DefaultOkStatuses ==> r == Err(Sp(RaiseForApi(resp)))
    ensures resp.status in DefaultOkStatuses && resp.body.None? ==> r == Err(DecodeError)
    ensures resp.status in DefaultOkStatuses && resp.body.Some? && resp.body.value.Array? ==>
              r == ListOutcome(kind, resp.body.value.items, skip)
    ensures (resp.status in DefaultOkStatuses && resp.body.Some?
             && (resp.body.value.Null? || resp.body.value.Bool? || resp.body.value.Number?)) ==> r == Err(TypeError)
    ensures resp.status in DefaultOkStatuses && resp.body.Some? && resp.body.value.Str? ==>
              r == if skip || |resp.body.value.s| == 0 then Ok(Empty(kind)) else Err(TypeError)
    ensures resp.status in DefaultOkStatuses && resp.body.Some? && resp.body.value.Object? ==>
              r == if skip || |resp.body.value.fields| == 0 then Ok(Empty(kind)) else Err(TypeError)
    ensures r.Ok? ==> Valid(r.value) && r.value.kind == kind
  {
    var text :- GetApiResponse(resp, None);
    var body :- Decode(text);
    match body {
      case Array(items) =>
        r := BuildEntitySet(kind, items, skip);
        if r.Ok? { SurvivorsValid(kind, items, |items|); }
      case Str(s) =>
        var chars := seq(|s|, i requires 0 <= i < |s| => Str([s[i]]));
        r := BuildEntitySet(kind, chars, skip);
        NonObjectsBuildNothing(kind, chars, |chars|);
        if |chars| > 0 { assert !Keep(kind, chars, 0); }
        if r.Ok? { SurvivorsValid(kind, chars, |chars|); }
      case Object(fields) =>
        r := if skip || |fields| == 0 then Ok(Empty(kind)) else Err(TypeError);
      case _ =>
        r := Err(TypeError);
    }
  }

  /** Items that are not JSON objects cannot be indexed by key, so none of
      them builds an entity and each fails with `TypeError`. */
  lemma {:induction false} NonObjectsBuildNothing(kind: Kind, items: seq<Json>, n: nat)
    requires n <= |items|
    requires forall i | 0 <= i < |items| :: !items[i].Object?
    ensures Survivors(kind, items, n) == []
    ensures forall i | 0 <= i < |items| :: FailureAt(kind, items, i) == TypeError
    decreases n
  {
    if n > 0 {
      NonObjectsBuildNothing(kind, items, n - 1);
      assert !Keep(kind, items, n - 1);
    }
  }

  /** With skip off, the list is built exactly when every item survives, and
      then it holds every item's entity in input order. */
  lemma StrictListIsAllOrNothing(kind: Kind, items: seq<Json>)
    ensures ListOutcome(kind, items, false).Ok? <==> forall i | 0 <= i < |items| :: Keep(kind, items, i)
    ensures ListOutcome(kind, items, false).Ok? ==>
              var es := ListOutcome(kind, items, false).value.entries;
              |es| == |items| && forall i | 0 <= i < |items| :: Parse(kind, items[i]) == Ok(es[i])
  {
    if ListOutcome(kind, items, false).Ok? {
      AllKeptMeansAllBuilt(kind, items, |items|);
    }
  }

  lemma {:induction false} AllKeptMeansAllBuilt(kind: Kind, items: seq<Json>, n: nat)
    requires n <= |items|
    requires forall i | 0 <= i < n :: Keep(kind, items, i)
    ensures |Survivors(kind, items, n)| == n
    ensures forall i | 0 <= i < n :: Parse(kind, items[i]) == Ok(Survivors(kind, items, n)[i])
    decreases n
  {
    if n > 0 {
      AllKeptMeansAllBuilt(kind, items, n - 1);
    }
  }

  /** With skip off, a failure names the first item that does not survive. */
  lemma StrictListFailsAtFirstBadItem(kind: Kind, items: seq<Json>)
    requires ListOutcome(kind, items, false).Err?
    ensures exists i | 0 <= i < |items| ::
              !Keep(kind, items, i) && (forall j | 0 <= j < i :: Keep(kind, items, j))
              && ListOutcome(kind, items, false).error == FailureAt(kind, items, i)
  {
    var k := FirstUnkept(kind, items, 0);
    assert !Keep(kind, items, k);
  }

  /** With skip on, an entity is listed exactly when some item builds it and no
      earlier item built the same id: failing items are dropped and the first
      of any duplicate ids is kept. */
  lemma {:induction false} SkipListMembers(kind: Kind, items: seq<Json>, n: nat, x: Entity)
    requires n <= |items|
    ensures x in Survivors(kind, items, n) <==>
              exists i | 0 <= i < n :: Keep(kind, items, i) && Parse(kind, items[i]) == Ok(x)
    decreases n
  {
    if n > 0 {
      SkipListMembers(kind, items, n - 1, x);
    }
  }

  /** A language or voice argument: an entity handle, or any string. */
  datatype Target = Handle(entity: Entity) | Named(name: string)

  /** The name a request uses for a language or voice argument: the entity's
      `name` (never its id) for an entity of the expected kind, the string
      itself otherwise. `None` stands for `str()` of an entity of the other
      kind, whose formatting is not modelled. */
  function AddressName(t: Target, kind: Kind): (r: Option<Json>)
    ensures t.Named? ==> r == Some(Str(t.name))
    ensures t.Handle? && t.entity.KindOf() == kind ==> r == Some(t.entity.name)
  {
    match t
    case Handle(e) => if e.KindOf() == kind then Some(e.name) else None
    case Named(s) => Some(Str(s))
  }

  /** Addressing by entity and by that entity's name string are the same request. */
  lemma HandleAndNameAddressAlike(e: Entity, s: string)
    requires e.name == Str(s)
    ensures AddressName(Handle(e), e.KindOf()) == AddressName(Named(s), e.KindOf())
  {
  }

  /** A response is accepted exactly when its status is listed; anything but a
      list falls back to `[200]`, and deletion also takes 204. */
  lemma StatusAcceptance(resp: Response)
    ensures GetApiResponse(resp, None).Ok? <==> resp.status == 200
    ensures GetApiResponse(resp, Some(DeleteOkStatuses)).Ok? <==> resp.status == 200 || resp.status == 204
    ensures GetApiResponse(resp, Some([])).Err?
  {
  }

  /** A rejected session creation with `{"reason": "R1", "message": "bad domain"}`
      reports both diagnostics; a body that is not JSON reports neither. */
  lemma DiagnosticsExample(status: int, reason: string)
    requires status != 200
    ensures var body := Object(map["reason" := Str("R1"), "message" := Str("bad domain")]);
      SessionCreate(Response(status, reason, Some(body)), Response(200, "OK", None))
        == Err(Sp(ApiRequestError(Some(status), Some(reason), Some(Str("R1")), Some(Str("bad domain")))))
    ensures SessionCreate(Response(status, reason, None), Response(200, "OK", None))
        == Err(Sp(ApiRequestError(Some(status), Some(reason), Some(Str("")), Some(Str("")))))
  {
  }
}

=== FILE: exceptions.dfy ===
/** The error family of the client (`SPBaseError` with its two subclasses),
    and the wider set of exceptions that can escape one of the modelled calls. */
module Exceptions {
  import opened Results
  import opened Json

  /** `SPBaseError`: a request error reports a status the caller did not accept,
      with what the service said about it; a response error names the key an
      otherwise successful response lacked. Every field defaults to `None`. */
  datatype SpError =
    | ApiRequestError(status: Option<int>, statusText: Option<string>,
                      apiReason: Option<Json>, apiReasonDesc: Option<Json>)
    | ApiResponseError(key: Option<string>)

  /** Everything a modelled call can raise: a member of the family, or one of
      the built-in exceptions that escape the catalog and the JSON accessors. */
  datatype Error =
    | Sp(sp: SpError)
      /** A duplicate id on insertion, or an absent id or name on lookup. */
    | KeyError(key: Json)
      /** The wrong kind of entity, or a JSON value that cannot be indexed or iterated. */
    | TypeError
      /** A successful response whose body is not JSON (`json.loads` fails). */
    | DecodeError

  /** `APIRequestError(status=…, status_text=…, api_reason=…, api_reason_desc=…)`. */
  function RequestError(status: Option<int> := None, statusText: Option<string> := None,
                        apiReason: Option<Json> := None, apiReasonDesc: Option<Json> := None): SpError
  {
    ApiRequestError(status, statusText, apiReason, apiReasonDesc)
  }

  /** `APIResponseError(key=…)`. */
  function ResponseError(key: Option<string> := None): SpError
  {
    ApiResponseError(key)
  }

  /** The response error the client raises for an absent key, as an escaping exception. */
  function MissingKey(key: string): Error
  {
    Sp(ResponseError(Some(key)))
  }

  /** Whether an escaping exception is caught by `except SPBaseError`. */
  predicate IsSpBaseError(e: Error)
  {
    e.Sp?
  }

  lemma RequestErrorKeepsFields(status: Option<int>, statusText: Option<string>,
                                apiReason: Option<Json>, apiReasonDesc: Option<Json>)
    ensures var e := RequestError(status, statusText, apiReason, apiReasonDesc);
      e.ApiRequestError? && e.status == status && e.statusText == statusText
      && e.apiReason == apiReason && e.apiReasonDesc == apiReasonDesc
  {
  }

  lemma RequestErrorDefaultsToNone()
    ensures RequestError() == ApiRequestError(None, None, None, None)
    ensures RequestError(status := Some(404)) == ApiRequestError(Some(404), None, None, None)
  {
  }

  lemma ResponseErrorKeepsKey(key: Option<string>)
    ensures ResponseError(key).ApiResponseError? && ResponseError(key).key == key
    ensures ResponseError().key == None
  {
  }

  /** Both kinds belong to the family, and no request error is a response error. */
  lemma FamilyHasTwoDisjointKinds(req: SpError, resp: SpError)
    requires req.ApiRequestError? && resp.ApiResponseError?
    ensures req != resp
    ensures IsSpBaseError(Sp(req)) && IsSpBaseError(Sp(resp))
    ensures !IsSpBaseError(TypeError) && !IsSpBaseError(DecodeError)
    ensures forall k :: !IsSpBaseError(KeyError(k))
  {
  }
}

=== FILE: json.dfy ===
/** JSON values as `json.loads` produces them, and the two Python operators the
    client applies to them with a string key: subscription `value[key]` and the
    membership test `key in value`. */
module Json {
  import opened Results

  /** Numbers are integers only; objects map string keys to values. */
  datatype Json =
    | Null
    | Bool(b: bool)
    | Number(n: int)
    | Str(s: string)
    | Array(items: seq<Json>)
    | Object(fields: map<string, Json>)

  /** The outcome of `value[key]` for a string key: the stored value, a
      `KeyError` (an object without that key), or a `TypeError` (anything that
      is not an object: lists and strings need integer indices, the scalars are
      not subscriptable at all). */
  datatype Lookup = Found(value: Json) | Missing | NotSubscriptable

  function Subscript(j: Json, key: string): (r: Lookup)
    ensures r.Found? <==> j.Object? && key in j.fields
    ensures r.Found? ==> r.value == j.fields[key]
    ensures r.NotSubscriptable? <==> !j.Object?
  {
    match j
    case Object(fields) => if key in fields then Found(fields[key]) else Missing
    case _ => NotSubscriptable
  }

  /** Python's substring test `k in s` on strings. */
  predicate IsSubstring(k: string, s: string)
    decreases |s|
  {
    k <= s || (|s| > 0 && IsSubstring(k, s[1..]))
  }

  /** `key in value`: a key test on objects, an element test on lists, a
      substring test on strings; `None` when Python raises `TypeError` (the
      scalars are not iterable). */
  function KeyIn(j: Json, key: string): (r: Option<bool>)
    ensures r.None? <==> !(j.Object? || j.Array? || j.Str?)
    ensures j.Object? ==> r == Some(key in j.fields)
  {
    match j
    case Object(fields) => Some(key in fields)
    case Array(items) => Some(Str(key) in items)
    case Str(s) => Some(IsSubstring(key, s))
    case _ => None
  }
}

=== FILE: results.dfy ===
/** Failure-compatible wrappers used throughout the model: an optional value
    (Python's `None` or a value) and a result that is either a value or the
    exception a call raises. */
module Results {

  /** Raw bytes, as Python's `bytes` and WebSocket binary payloads. */
  type Bytes = seq<bv8>

  datatype Option<+T> = None | Some(value: T)
  {
    /** The value, or `default` when there is none. */
    function GetOr(default: T): T
    {
      match this
      case Some(v) => v
      case None => default
    }
  }

  datatype Result<+T, +E> = Ok(value: T) | Err(error: E)
  {
    predicate IsFailure()
    {
      Err?
    }

    function PropagateFailure<U>(): Result<U, E>
      requires Err?
    {
      Err(error)
    }

    function Extract(): T
      requires Ok?
    {
      value
    }
  }
}

=== FILE: session.dfy ===
/** A service session (`_Session`) and the configuration of one synthesis
    stream (`_WsConfiguration`), both built from a decoded response body. */
module Sessions {
  import opened Results
  import opened Json
  import opened Exceptions
  import Url

  /** The session id never changes once read; the activity flag starts as a
      boolean and is later overwritten with whatever `is_active` the service
      reports, which the source does not check to be a boolean. */
  datatype Session = Session(sessionId: Json, isActive: Json)

  /** `_Session(api_json)`. */
  function NewSession(body: Json): (r: Result<Session, Error>)
    ensures !body.Object? ==> r == Err(TypeError)
    ensures body.Object? && "session_id" !in body.fields ==> r == Err(MissingKey("session_id"))
    ensures body.Object? && "session_id" in body.fields ==>
              r.Ok? && r.value.sessionId == body.fields["session_id"]
    ensures r.Ok? ==> r.value.isActive.Bool?
    ensures r.Ok? ==> (r.value.isActive.b <==> r.value.sessionId != Str(""))
  {
    match Subscript(body, "session_id")
    case NotSubscriptable => Err(TypeError)
    case Missing => Err(MissingKey("session_id"))
    case Found(id) => Ok(Session(id, Bool(id != Str(""))))
  }

  /** The only assignment a session ever sees after construction: `_is_active := active`. */
  function WithActivity(s: Session, active: Json): (r: Session)
    ensures r.sessionId == s.sessionId
    ensures r.isActive == active
  {
    s.(isActive := active)
  }

  /** The stream configuration: the WebSocket URL, the transaction id read
      from it, and the session that opened the stream. */
  datatype WsConfig = WsConfig(url: string, transactionId: string, session: Session)

  /** `_WsConfiguration(api_json, session)`: `url` is required; the
      transaction id is the last `/`-segment of the URL's path. A value that is
      not a string, or a URL that `urlparse` rejects, ends in the bare
      `except:` and is reported as a response error on `url` as well. */
  function NewWsConfig(body: Json, session: Session): (r: Result<WsConfig, Error>)
    ensures !body.Object? ==> r == Err(TypeError)
    ensures body.Object? && "url" !in body.fields ==> r == Err(MissingKey("url"))
    ensures body.Object? && "url" in body.fields && !body.fields["url"].Str? ==>
              r == Err(MissingKey("url"))
    ensures r.Ok? <==> body.Object? && "url" in body.fields && body.fields["url"].Str?
                       && Url.UrlPath(body.fields["url"].s).Ok?
    ensures r.Ok? ==> Str(r.value.url) == body.fields["url"] && r.value.session == session
    ensures r.Ok? ==> r.value.transactionId == Url.LastSegment(Url.UrlPath(r.value.url).value)
    ensures r.Ok? ==> '/' !in r.value.transactionId
    ensures r.Ok? ==> var path := Url.UrlPath(r.value.url).value;
              |r.value.transactionId| <= |path|
              && r.value.transactionId == path[|path| - |r.value.transactionId|..]
    ensures body.Object? && r.Err? ==> r.error == MissingKey("url")
  {
    match Subscript(body, "url")
    case NotSubscriptable => Err(TypeError)
    case Missing => Err(MissingKey("url"))
    case Found(u) =>
      if !u.Str? then Err(MissingKey("url"))
      else
        match Url.UrlPath(u.s)
        case Err(_) => Err(MissingKey("url"))
        case Ok(path) => Ok(WsConfig(u.s, Url.LastSegment(path), session))
  }

  /** A URL whose path ends in `/` yields an empty transaction id, not an error. */
  lemma TrailingSlashUrlGivesEmptyTransaction(body: Json, session: Session)
    requires body.Object? && "url" in body.fields && body.fields["url"].Str?
    requires var p := Url.UrlPath(body.fields["url"].s); p.Ok? && |p.value| > 0 && p.value[|p.value| - 1] == '/'
    ensures NewWsConfig(body, session).Ok?
    ensures NewWsConfig(body, session).value.transactionId == ""
  {
    Url.TrailingSlashGivesEmptySegment(Url.UrlPath(body.fields["url"].s).value);
  }

  /** For `scheme://host/…/id` the transaction id is the final segment `id`. */
  lemma TransactionIdOfPlainUrl(body: Json, session: Session,
                                scheme: string, host: string, dir: string, id: string)
    requires |scheme| > 0 && Url.IsAsciiAlpha(scheme[0])
    requires forall k | 0 <= k < |scheme| :: Url.IsSchemeChar(scheme[k])
    requires forall k | 0 <= k < |host| :: host[k] !in {'/', '?', '#', '[', ']'}
    requires |dir| == 0 || dir[0] == '/'
    requires forall k | 0 <= k < |dir| :: dir[k] !in {'?', '#', ';'}
    requires forall k | 0 <= k < |id| :: id[k] !in {'/', '?', '#', ';'}
    requires body == Object(map["url" := Str(scheme + "://" + host + dir + "/" + id)])
    ensures NewWsConfig(body, session) == Ok(WsConfig(scheme + "://" + host + dir + "/" + id, id, session))
  {
    var path := dir + "/" + id;
    assert scheme + "://" + host + dir + "/" + id == scheme + "://" + host + path + "";
    assert '?' !in path && '#' !in path && ';' !in path by {
      assert forall k | 0 <= k < |path| :: path[k] !in {'?', '#', ';'} by {
        forall k | 0 <= k < |path| ensures path[k] !in {'?', '#', ';'} {
          if k < |dir| { assert path[k] == dir[k]; }
          else if k > |dir| { assert path[k] == id[k - |dir| - 1]; }
        }
      }
    }
    assert path[0] == '/';
    Url.PathOfPlainUrl(scheme, host, path, "");
    Url.LastSegmentIsUnique(path, dir + "/", id);
  }
}

=== FILE: streaming.dfy ===
/** The send/drain loop of `stream_synthes`: the text goes out in slices of
    500 characters; after each slice the frames the peer sends back are
    yielded until a CLOSE or CLOSING frame arrives or a receive times out,
    and then the next slice is sent. The WebSocket is replaced by a script of
    receive outcomes, consumed one per `receive` call. */
module Streaming {

  import opened Results

  /** Characters per `send_str`. */
  const ChunkSize: nat := 500

  /** The outcome of one `ws.receive(timeout=2)`: a data frame, one of the two
      control frames that end a drain, or no frame within the timeout. */
  datatype Frame = Data(payload: Bytes) | Close | Closing | Timeout

  /** What a run shows: the slices sent, in order, and the data yielded. */
  datatype Transcript = Transcript(sent: seq<string>, yielded: seq<Bytes>)

  function Min(a: int, b: int): int
  {
    if a <= b then a else b
  }

  /** One `receive` against the script; an exhausted script times out. */
  function Receive(script: seq<Frame>): (r: (Frame, seq<Frame>))
    ensures |script| > 0 ==> r == (script[0], script[1..])
    ensures |script| == 0 ==> r == (Timeout, [])
  {
    if |script| == 0 then (Timeout, []) else (script[0], script[1..])
  }

  /** The inner loop after one send: yield each data frame's payload until a
      control frame or a timeout; returns the yielded data and the unread script. */
  function Drain(script: seq<Frame>): (r: (seq<Bytes>, seq<Frame>))
    ensures |script| > 0 ==> |r.1| < |script|
    ensures |r.0| <= |script| - |r.1|
    decreases |script|
  {
    var (msg, rest) := Receive(script);
    match msg
    case Data(d) =>
      var (more, rest') := Drain(rest);
      ([d] + more, rest')
    case _ => ([], rest)
  }

  /** The outer loop: while text remains, send `text[:500]`, drain, and drop
      the slice. A timeout or a control frame ends only the drain. */
  function Run(text: string, script: seq<Frame>): (r: Transcript)
    ensures |r.sent| == 0 <==> |text| == 0
    ensures |r.sent| <= |text|
    ensures |text| > 0 ==> r.sent[0] == text[..Min(ChunkSize, |text|)]
    decreases |text|
  {
    if |text| == 0 then Transcript([], [])
    else
      var cut := Min(ChunkSize, |text|);
      var (out, rest) := Drain(script);
      var tail := Run(text[cut..], rest);
      Transcript([text[..cut]] + tail.sent, out + tail.yielded)
  }

  // ---------------------------------------------------------------------------
  // Reference definitions
  // ---------------------------------------------------------------------------

  /** `ceil(n / 500)`. */
  function NumChunks(n: nat): nat
  {
    (n + ChunkSize - 1) / ChunkSize
  }

  /** The `k`-th slice of 500 characters. */
  function Slice(text: string, k: nat): string
    requires k * ChunkSize < |text|
  {
    text[k * ChunkSize .. Min(k * ChunkSize + ChunkSize, |text|)]
  }

  function Concat(parts: seq<string>): string
  {
    if |parts| == 0 then [] else parts[0] + Concat(parts[1..])
  }

  /** The payloads of the data frames, in order. */
  function Payloads(frames: seq<Frame>): seq<Bytes>
  {
    if |frames| == 0 then []
    else (if frames[0].Data? then [frames[0].payload] else []) + Payloads(frames[1..])
  }

  /** The shortest prefix of the script that holds `n` non-data frames, or the
      whole script when it holds fewer. */
  function CutAfter(script: seq<Frame>, n: nat): (r: seq<Frame>)
    ensures r <= script
    decreases |script|
  {
    if n == 0 || |script| == 0 then []
    else if script[0].Data? then [script[0]] + CutAfter(script[1..], n)
    else [script[0]] + CutAfter(script[1..], n - 1)
  }

  // ---------------------------------------------------------------------------
  // Properties
  // ---------------------------------------------------------------------------

  /** Empty text sends nothing and yields nothing. */
  lemma EmptyTextDoesNothing(script: seq<Frame>)
    ensures Run("", script) == Transcript([], [])
  {
  }

  lemma {:induction false} ConcatAppend(a: string, parts: seq<string>)
    ensures Concat([a] + parts) == a + Concat(parts)
  {
    assert ([a] + parts)[1..] == parts;
  }

  /** The slices sent are the consecutive 500-character slices of the text:
      there are `ceil(|text| / 500)` of them, each of length 1 to 500, and
      together they spell the text. */
  lemma {:induction false} SentSlicesCoverText(text: string, script: seq<Frame>)
    ensures var sent := Run(text, script).sent;
      && |sent| == NumChunks(|text|)
      && Concat(sent) == text
      && forall k | 0 <= k < |sent| :: k * ChunkSize < |text| && sent[k] == Slice(text, k)
                                       && 1 <= |sent[k]| <= ChunkSize
    decreases |text|
  {
    if |text| > 0 {
      var cut := Min(ChunkSize, |text|);
      var (out, rest) := Drain(script);
      var rem := text[cut..];
      SentSlicesCoverText(rem, rest);
      var tail := Run(rem, rest).sent;
      var sent := Run(text, script).sent;
      assert sent == [text[..cut]] + tail;
      ConcatAppend(text[..cut], tail);
      assert text[..cut] + rem == text;
      assert NumChunks(|text|) == 1 + NumChunks(|rem|) by {
        if |text| <= ChunkSize {
          assert |rem| == 0;
        } else {
          assert |rem| == |text| - ChunkSize;
        }
      }
      forall k | 0 <= k < |sent|
        ensures k * ChunkSize < |text| && sent[k] == Slice(text, k) && 1 <= |sent[k]| <= ChunkSize
      {
        if k > 0 {
          assert sent[k] == tail[k - 1];
          SliceOfRest(text, k);
        }
      }
    }
  }

  /** Slice `k` of the text is slice `k - 1` of what follows the first slice. */
  lemma SliceOfRest(text: string, k: nat)
    requires ChunkSize < |text| && 0 < k && (k - 1) * ChunkSize < |text| - ChunkSize
    ensures k * ChunkSize < |text|
    ensures Slice(text[ChunkSize..], k - 1) == Slice(text, k)
  {
    var rem := text[ChunkSize..];
    var a := (k - 1) * ChunkSize;
    assert k * ChunkSize == ChunkSize + a;
    var b := Min(a + ChunkSize, |rem|);
    assert Min(k * ChunkSize + ChunkSize, |text|) == ChunkSize + b;
    assert rem[a..b] == text[ChunkSize + a..ChunkSize + b];
  }

  lemma {:induction false} PayloadsAppend(a: seq<Frame>, b: seq<Frame>)
    ensures Payloads(a + b) == Payloads(a) + Payloads(b)
    decreases |a|
  {
    if |a| == 0 {
      assert a + b == b;
    } else {
      assert (a + b)[1..] == a[1..] + b;
      PayloadsAppend(a[1..], b);
    }
  }

  /** One drain reads exactly the script up to and including its first
      non-data frame, and yields the data in that stretch. */
  lemma {:induction false} DrainReadsFirstCut(script: seq<Frame>)
    ensures Drain(script).0 == Payloads(CutAfter(script, 1))
    ensures Drain(script).1 == script[|CutAfter(script, 1)|..]
    decreases |script|
  {
    if |script| > 0 {
      var c := CutAfter(script, 1);
      if script[0].Data? {
        DrainReadsFirstCut(script[1..]);
        assert c == [script[0]] + CutAfter(script[1..], 1);
        assert c[1..] == CutAfter(script[1..], 1);
        assert script[|c|..] == script[1..][|CutAfter(script[1..], 1)|..];
      } else {
        assert CutAfter(script[1..], 0) == [];
        assert c == [script[0]];
      }
    }
  }

  /** Cutting after `n + 1` non-data frames is cutting after one, then after
      `n` more in the rest. */
  lemma {:induction false} CutAfterSplits(script: seq<Frame>, n: nat)
    ensures var c := CutAfter(script, 1);
      CutAfter(script, n + 1) == c + CutAfter(script[|c|..], n)
    decreases |script|
  {
    if |script| > 0 {
      var c := CutAfter(script, 1);
      if script[0].Data? {
        CutAfterSplits(script[1..], n);
        var c' := CutAfter(script[1..], 1);
        assert c == [script[0]] + c';
        assert script[|c|..] == script[1..][|c'|..];
      } else {
        assert CutAfter(script[1..], 0) == [];
        assert c == [script[0]];
      }
    }
  }

  /** The data yielded is the data of every frame the run reads, in order:
      nothing is dropped or reordered, and the run reads the script up to
      the non-data frame that ends the drain of the last slice. */
  lemma {:induction false} YieldedIsDataOfFramesRead(text: string, script: seq<Frame>)
    ensures Run(text, script).yielded == Payloads(CutAfter(script, NumChunks(|text|)))
    decreases |text|
  {
    if |text| > 0 {
      var cut := Min(ChunkSize, |text|);
      var (out, rest) := Drain(script);
      var rem := text[cut..];
      YieldedIsDataOfFramesRead(rem, rest);
      DrainReadsFirstCut(script);
      var c := CutAfter(script, 1);
      var m := NumChunks(|rem|);
      assert NumChunks(|text|) == m + 1 by {
        if |text| <= ChunkSize { assert |rem| == 0; } else { assert |rem| == |text| - ChunkSize; }
      }
      CutAfterSplits(script, m);
      PayloadsAppend(c, CutAfter(rest, m));
    }
  }

  /** A text of at most one slice yields the data frames that arrive before
      the first timeout, and nothing after it. */
  lemma OneSliceYieldsUntilTimeout(text: string, data: seq<Bytes>, later: seq<Frame>)
    requires 0 < |text| <= ChunkSize
    ensures var script := seq(|data|, i requires 0 <= i < |data| => Data(data[i])) + [Timeout] + later;
      Run(text, script) == Transcript([text], data)
  {
    var frames := seq(|data|, i requires 0 <= i < |data| => Data(data[i]));
    var script := frames + [Timeout] + later;
    YieldedIsDataOfFramesRead(text, script);
    SentSlicesCoverText(text, script);
    assert NumChunks(|text|) == 1;
    CutOfDataThenStop(data, later);
    PayloadsOfData(data);
    PayloadsAppend(frames, [Timeout]);
    assert Run(text, script).sent[0] == Slice(text, 0) == text;
  }

  /** A CLOSE frame ends only the drain of the current slice: the next slice
      is still sent, and data arriving after the CLOSE is still yielded. */
  lemma CloseEndsOnlyTheDrain(text: string, d: Bytes, later: seq<Frame>)
    requires ChunkSize < |text| <= 2 * ChunkSize
    ensures Run(text, [Close, Data(d), Timeout] + later)
         == Transcript([text[..ChunkSize], text[ChunkSize..]], [d])
  {
    var script := [Close, Data(d), Timeout] + later;
    assert script[1..] == [Data(d), Timeout] + later;
    assert ([Data(d), Timeout] + later)[1..] == [Timeout] + later;
    assert ([Timeout] + later)[1..] == later;
    assert Drain([Timeout] + later) == ([], later);
    assert Receive([Data(d), Timeout] + later) == (Data(d), [Timeout] + later);
    assert [d] + [] == [d];
    assert Drain([Data(d), Timeout] + later) == ([d], later);
    assert Drain(script) == ([], [Data(d), Timeout] + later);
    var rem := text[ChunkSize..];
    assert Run(rem[|rem|..], later) == Transcript([], []);
    assert rem[..|rem|] == rem;
  }

  lemma {:induction false} CutOfDataThenStop(data: seq<Bytes>, later: seq<Frame>)
    ensures var frames := seq(|data|, i requires 0 <= i < |data| => Data(data[i]));
      CutAfter(frames + [Timeout] + later, 1) == frames + [Timeout]
    decreases |data|
  {
    var frames := seq(|data|, i requires 0 <= i < |data| => Data(data[i]));
    if |data| > 0 {
      CutOfDataThenStop(data[1..], later);
      var frames' := seq(|data| - 1, i requires 0 <= i < |data| - 1 => Data(data[1..][i]));
      assert frames == [Data(data[0])] + frames';
      assert (frames + [Timeout] + later)[1..] == frames' + [Timeout] + later;
    } else {
      assert frames + [Timeout] + later == [Timeout] + later;
    }
  }

  lemma {:induction false} PayloadsOfData(data: seq<Bytes>)
    ensures Payloads(seq(|data|, i requires 0 <= i < |data| => Data(data[i]))) == data
    decreases |data|
  {
    if |data| > 0 {
      PayloadsOfData(data[1..]);
      var frames := seq(|data|, i requires 0 <= i < |data| => Data(data[i]));
      assert frames[1..] == seq(|data| - 1, i requires 0 <= i < |data| - 1 => Data(data[1..][i]));
    }
  }
}

=== FILE: tts.dfy ===
/** Languages and voices (`_TTSEntity`, `_Language`, `_Voice`) and the ordered
    one-entry-per-id collection of them (`_TTSEntitiesSet` with its typed
    subclasses `_LanguagesSet` and `_VoicesSet`). */
module Tts {
  import opened Results
  import opened Json
  import opened Exceptions

  datatype Kind = LanguageKind | VoiceKind

  /** Field values are kept as the JSON values the service sent: the source
      never checks their types. */
  datatype Entity =
    | Language(id: Json, name: Json)
    | Voice(id: Json, name: Json, gender: Json)
  {
    function KindOf(): Kind
    {
      if Language? then LanguageKind else VoiceKind
    }
  }

  // ---------------------------------------------------------------------------
  // Construction from a JSON object
  // ---------------------------------------------------------------------------

  /** The base constructor: `id` is read first, then `name`; an absent key is
      reported by name, and a value that is not an object cannot be indexed. */
  function ParseIdName(j: Json): (r: Result<(Json, Json), Error>)
    ensures !j.Object? ==> r == Err(TypeError)
    ensures j.Object? && "id" !in j.fields ==> r == Err(MissingKey("id"))
    ensures j.Object? && "id" in j.fields && "name" !in j.fields ==> r == Err(MissingKey("name"))
    ensures j.Object? && "id" in j.fields && "name" in j.fields ==>
              r == Ok((j.fields["id"], j.fields["name"]))
  {
    match Subscript(j, "id")
    case NotSubscriptable => Err(TypeError)
    case Missing => Err(MissingKey("id"))
    case Found(id) =>
      match Subscript(j, "name")
      case Found(name) => Ok((id, name))
      case _ => Err(MissingKey("name"))
  }

  /** A language re-raises a base failure as a new response error with the same key. */
  function ParseLanguage(j: Json): (r: Result<Entity, Error>)
    ensures r.Ok? <==> ParseIdName(j).Ok?
    ensures r.Ok? ==> r.value == Language(ParseIdName(j).value.0, ParseIdName(j).value.1)
    ensures r.Err? ==> r.error == ParseIdName(j).error
  {
    match ParseIdName(j)
    case Ok((id, name)) => Ok(Language(id, name))
    case Err(Sp(ApiResponseError(key))) => Err(Sp(ResponseError(key)))
    case Err(e) => Err(e)
  }

  /** A voice re-raises a base failure with the same key, and only then reads `gender`. */
  function ParseVoice(j: Json): (r: Result<Entity, Error>)
    ensures ParseIdName(j).Err? ==> r == Err(ParseIdName(j).error)
    ensures ParseIdName(j).Ok? ==> j.Object? && (r.Ok? <==> "gender" in j.fields)
    ensures ParseIdName(j).Ok? && r.Err? ==> r.error == MissingKey("gender")
    ensures r.Ok? ==> j.Object? && "gender" in j.fields
                      && r.value == Voice(j.fields["id"], j.fields["name"], j.fields["gender"])
  {
    match ParseIdName(j)
    case Err(Sp(ApiResponseError(key))) => Err(Sp(ResponseError(key)))
    case Err(e) => Err(e)
    case Ok((id, name)) =>
      match Subscript(j, "gender")
      case Found(gender) => Ok(Voice(id, name, gender))
      case _ => Err(MissingKey("gender"))
  }

  /** The constructor for the given kind. */
  function Parse(kind: Kind, j: Json): (r: Result<Entity, Error>)
    ensures r.Ok? ==> r.value.KindOf() == kind
  {
    match kind
    case LanguageKind => ParseLanguage(j)
    case VoiceKind => ParseVoice(j)
  }

  // ---------------------------------------------------------------------------
  // The ordered collection
  // ---------------------------------------------------------------------------

  /** The entities in insertion order; the source keeps them in an ordered
      dictionary keyed by id, which is `AsMap(entries)` below. */
  datatype EntitySet = EntitySet(kind: Kind, entries: seq<Entity>)

  predicate DistinctIds(es: seq<Entity>)
  {
    forall i, j | 0 <= i < j < |es| :: es[i].id != es[j].id
  }

  predicate OfKind(es: seq<Entity>, kind: Kind)
  {
    forall i | 0 <= i < |es| :: es[i].KindOf() == kind
  }

  /** What every set built through the typed insertion satisfies. */
  predicate Valid(s: EntitySet)
  {
    DistinctIds(s.entries) && OfKind(s.entries, s.kind)
  }

  function Ids(es: seq<Entity>): set<Json>
  {
    set i | 0 <= i < |es| :: es[i].id
  }

  /** The ordered dictionary as a map from id to entity; later insertions of a
      key overwrite earlier ones, exactly as `d[key] = value` does. */
  function AsMap(es: seq<Entity>): (m: map<Json, Entity>)
    ensures m.Keys == Ids(es)
    decreases |es|
  {
    if |es| == 0 then map[]
    else
      var init := es[..|es| - 1];
      assert Ids(es) == Ids(init) + {es[|es| - 1].id} by {
        forall x | x in Ids(es) ensures x in Ids(init) + {es[|es| - 1].id} {
          var i :| 0 <= i < |es| && es[i].id == x;
          if i < |es| - 1 { assert init[i] == es[i]; }
        }
      }
      AsMap(init)[es[|es| - 1].id := es[|es| - 1]]
  }

  function Empty(kind: Kind): (s: EntitySet)
    ensures Valid(s) && |s.entries| == 0 && s.kind == kind
  {
    EntitySet(kind, [])
  }

  /** `len(s)`. */
  function Len(s: EntitySet): (r: nat)
    ensures DistinctIds(s.entries) ==> r == |Ids(s.entries)| && r == |AsMap(s.entries)|
  {
    if DistinctIds(s.entries) then
      LenCountsIds(s.entries);
      |s.entries|
    else |s.entries|
  }

  /** The right-hand operand of `in`: an entity, or any other Python value. */
  datatype Value = AnEntity(entity: Entity) | NotAnEntity

  /** `v in s`: only entities can be members, and an entity is a member when
      its id is a key of the dictionary, whatever its kind. */
  function Contains(s: EntitySet, v: Value): (b: bool)
    ensures b <==> v.AnEntity? && exists i | 0 <= i < |s.entries| :: s.entries[i].id == v.entity.id
  {
    v.AnEntity? && v.entity.id in AsMap(s.entries)
  }

  /** `s[key]`: dictionary lookup by id. */
  function GetItem(s: EntitySet, key: Json): (r: Result<Entity, Error>)
    ensures r.Err? <==> forall i | 0 <= i < |s.entries| :: s.entries[i].id != key
    ensures r.Err? ==> r.error == KeyError(key)
  {
    var m := AsMap(s.entries);
    if key in m then Ok(m[key]) else Err(KeyError(key))
  }

  /** The untyped `_add`: a fresh id is appended, a present id raises
      `KeyError` and no new collection is produced. */
  function Add(s: EntitySet, e: Entity): (r: Result<EntitySet, Error>)
    ensures r.Ok? <==> forall i | 0 <= i < |s.entries| :: s.entries[i].id != e.id
    ensures r.Ok? ==> r.value == EntitySet(s.kind, s.entries + [e])
    ensures r.Err? ==> r.error == KeyError(e.id)
    ensures r.Ok? && DistinctIds(s.entries) ==> DistinctIds(r.value.entries)
  {
    if Contains(s, AnEntity(e)) then Err(KeyError(e.id))
    else Ok(EntitySet(s.kind, s.entries + [e]))
  }

  /** The typed `_add` of the language and voice sets: the kind is checked
      before, and independently of, the duplicate check. */
  function AddTyped(s: EntitySet, e: Entity): (r: Result<EntitySet, Error>)
    ensures e.KindOf() != s.kind ==> r == Err(TypeError)
    ensures e.KindOf() == s.kind ==> r == Add(s, e)
    ensures Valid(s) && r.Ok? ==> Valid(r.value)
  {
    if e.KindOf() != s.kind then Err(TypeError) else Add(s, e)
  }

  /** The entries whose id differs from `id`, in their original order. */
  function RemoveId(es: seq<Entity>, id: Json): (r: seq<Entity>)
    ensures forall i | 0 <= i < |r| :: r[i].id != id
    ensures |r| <= |es|
    decreases |es|
  {
    if |es| == 0 then []
    else (if es[0].id == id then [] else [es[0]]) + RemoveId(es[1..], id)
  }

  /** Removal keeps exactly the entries whose id differs. */
  lemma {:induction false} RemoveIdKeepsOthers(es: seq<Entity>, id: Json)
    ensures forall x :: x in RemoveId(es, id) <==> x in es && x.id != id
    decreases |es|
  {
    if |es| > 0 {
      RemoveIdKeepsOthers(es[1..], id);
      assert es == [es[0]] + es[1..];
    }
  }

  /** `remove(entity)`: `pop(entity.id, None)`, silent when the id is absent. */
  function Remove(s: EntitySet, e: Entity): (r: EntitySet)
    ensures r.kind == s.kind
    ensures !Contains(r, AnEntity(e))
    ensures forall x :: x in r.entries <==> x in s.entries && x.id != e.id
  {
    RemoveIdKeepsOthers(s.entries, e.id);
    EntitySet(s.kind, RemoveId(s.entries, e.id))
  }

  /** Which field a lookup compares. */
  datatype Field = ById | ByName

  function FieldOf(e: Entity, f: Field): Json
  {
    match f
    case ById => e.id
    case ByName => e.name
  }

  /** The position of the first entry whose field equals `key`. */
  function FirstIndex(es: seq<Entity>, f: Field, key: Json): (r: Option<nat>)
    ensures r.Some? ==> r.value < |es| && FieldOf(es[r.value], f) == key
    ensures r.Some? ==> forall j | 0 <= j < r.value :: FieldOf(es[j], f) != key
    ensures r.None? <==> forall j | 0 <= j < |es| :: FieldOf(es[j], f) != key
    decreases |es|
  {
    if |es| == 0 then None
    else if FieldOf(es[0], f) == key then Some(0)
    else
      match FirstIndex(es[1..], f, key)
      case None => None
      case Some(i) => Some(i + 1)
  }

  /** The shared loop of `get_by_id` and `get_by_name`: walk the set in order
      and return the first match, or raise `KeyError`. */
  function FindFirst(s: EntitySet, f: Field, key: Json): (r: Result<Entity, Error>)
    ensures r.Ok? ==> FieldOf(r.value, f) == key
    ensures r.Ok? ==> exists k | 0 <= k < |s.entries| :: s.entries[k] == r.value
                        && forall j | 0 <= j < k :: FieldOf(s.entries[j], f) != key
    ensures r.Err? <==> forall j | 0 <= j < |s.entries| :: FieldOf(s.entries[j], f) != key
    ensures r.Err? ==> r.error == KeyError(key)
  {
    match FirstIndex(s.entries, f, key)
    case Some(k) => Ok(s.entries[k])
    case None => Err(KeyError(key))
  }

  function GetById(s: EntitySet, id: Json): (r: Result<Entity, Error>)
    ensures r.Err? <==> id !in Ids(s.entries)
    ensures r.Err? ==> r.error == KeyError(id)
    ensures r.Ok? ==> r.value.id == id && r.value in s.entries
  {
    FindFirst(s, ById, id)
  }

  function GetByName(s: EntitySet, name: Json): (r: Result<Entity, Error>)
    ensures r.Err? <==> forall j | 0 <= j < |s.entries| :: s.entries[j].name != name
    ensures r.Err? ==> r.error == KeyError(name)
    ensures r.Ok? ==> exists k | 0 <= k < |s.entries| :: s.entries[k] == r.value && r.value.name == name
                        && forall j | 0 <= j < k :: s.entries[j].name != name
  {
    FindFirst(s, ByName, name)
  }

  // ---------------------------------------------------------------------------
  // The iterator protocol
  // ---------------------------------------------------------------------------

  /** The iterator state `_index`: the position of the entity last returned,
      −1 before the first call to `__next__`. */
  datatype Cursor = Cursor(index: int)

  /** `__iter__` resets the state. */
  function Iter(s: EntitySet): Cursor
  {
    Cursor(-1)
  }

  /** `__next__`: the next entity and the advanced state, or `None` for
      `StopIteration`. */
  function Next(s: EntitySet, c: Cursor): (r: Option<(Entity, Cursor)>)
    requires -1 <= c.index
    ensures r.None? <==> c.index >= |s.entries| - 1
    ensures r.Some? ==> r.value.1.index == c.index + 1 && r.value.0 == s.entries[r.value.1.index]
  {
    if c.index < |s.entries| - 1 then Some((s.entries[c.index + 1], Cursor(c.index + 1)))
    else None
  }

  /** What a `for` loop sees: `__next__` called until `StopIteration`. */
  function Collect(s: EntitySet, c: Cursor): (r: seq<Entity>)
    requires -1 <= c.index
    ensures c.index < |s.entries| ==> r == s.entries[c.index + 1..]
    ensures c.index >= |s.entries| ==> r == []
    decreases |s.entries| - c.index
  {
    match Next(s, c)
    case None => []
    case Some((e, c')) => [e] + Collect(s, c')
  }

  // ---------------------------------------------------------------------------
  // Properties of the collection
  // ---------------------------------------------------------------------------

  /** `len` counts stored ids: with distinct ids there are as many ids as entries. */
  lemma {:induction false} LenCountsIds(es: seq<Entity>)
    requires DistinctIds(es)
    ensures |Ids(es)| == |es|
    decreases |es|
  {
    if |es| > 0 {
      var init := es[..|es| - 1];
      var last := es[|es| - 1];
      assert DistinctIds(init);
      LenCountsIds(init);
      assert es == init + [last];
      IdsAppend(init, [last]);
      assert Ids([last]) == {last.id} by {
        assert [last][0] == last;
      }
      assert last.id !in Ids(init) by {
        forall i | 0 <= i < |init| ensures init[i].id != last.id {
          assert init[i] == es[i];
        }
      }
    }
  }

  /** The ids of a concatenation are the ids of its parts. */
  lemma IdsAppend(a: seq<Entity>, b: seq<Entity>)
    ensures Ids(a + b) == Ids(a) + Ids(b)
  {
    var c := a + b;
    forall x | x in Ids(c) ensures x in Ids(a) + Ids(b) {
      var i :| 0 <= i < |c| && c[i].id == x;
      if i < |a| { assert c[i] == a[i]; } else { assert c[i] == b[i - |a|]; }
    }
    forall x | x in Ids(a) + Ids(b) ensures x in Ids(c) {
      if x in Ids(a) {
        var i :| 0 <= i < |a| && a[i].id == x;
        assert c[i] == a[i];
      } else {
        var i :| 0 <= i < |b| && b[i].id == x;
        assert c[|a| + i] == b[i];
      }
    }
  }

  /** Iterating from state `i` yields exactly the entries after position `i`. */
  lemma {:induction false} CollectFrom(s: EntitySet, i: int)
    requires -1 <= i < |s.entries|
    ensures Collect(s, Cursor(i)) == s.entries[i + 1..]
    decreases |s.entries| - i
  {
    if i < |s.entries| - 1 {
      CollectFrom(s, i + 1);
    }
  }

  /** A `for` loop over the set sees every entity once, in insertion order. */
  lemma IterationYieldsEntriesInOrder(s: EntitySet)
    ensures Collect(s, Iter(s)) == s.entries
  {
    if |s.entries| == 0 {
    } else {
      CollectFrom(s, -1);
    }
  }

  /** Under distinct ids the dictionary maps each stored id to its entity. */
  lemma {:induction false} AsMapFindsEntry(es: seq<Entity>, k: nat)
    requires DistinctIds(es) && k < |es|
    ensures es[k].id in AsMap(es) && AsMap(es)[es[k].id] == es[k]
    decreases |es|
  {
    var init := es[..|es| - 1];
    if k < |es| - 1 {
      assert DistinctIds(init);
      assert init[k] == es[k];
      AsMapFindsEntry(init, k);
    }
  }

  /** Indexing by id and searching by id agree on a set with distinct ids. */
  lemma GetItemAgreesWithGetById(s: EntitySet, key: Json)
    requires DistinctIds(s.entries)
    ensures GetItem(s, key) == GetById(s, key)
  {
    var r := GetById(s, key);
    if r.Ok? {
      var k :| 0 <= k < |s.entries| && s.entries[k] == r.value
               && forall j | 0 <= j < k :: FieldOf(s.entries[j], ById) != key;
      AsMapFindsEntry(s.entries, k);
    }
  }

  /** Removal on a non-empty sequence looks at the head, then at the rest. */
  lemma RemoveIdCons(e: Entity, rest: seq<Entity>, id: Json)
    ensures RemoveId([e] + rest, id) == (if e.id == id then [] else [e]) + RemoveId(rest, id)
  {
    assert ([e] + rest)[1..] == rest;
  }

  /** Removing the id at position `k` deletes exactly that entry; the others keep their order. */
  lemma {:induction false} RemoveDeletesOneEntry(es: seq<Entity>, k: nat)
    requires DistinctIds(es) && k < |es|
    ensures RemoveId(es, es[k].id) == es[..k] + es[k + 1..]
    decreases |es|
  {
    var id := es[k].id;
    var tail := es[1..];
    assert es == [es[0]] + tail;
    RemoveIdCons(es[0], tail, id);
    if k == 0 {
      RemoveHeadId(es);
    } else {
      assert es[0].id != id;
      assert DistinctIds(tail) by {
        forall i, j | 0 <= i < j < |tail| ensures tail[i].id != tail[j].id {
          assert tail[i] == es[i + 1] && tail[j] == es[j + 1];
        }
      }
      assert tail[k - 1] == es[k];
      RemoveDeletesOneEntry(tail, k - 1);
      assert es[..k] == [es[0]] + tail[..k - 1];
      assert es[k + 1..] == tail[k..];
    }
  }

  /** With distinct ids, removing the first entry's id leaves the rest. */
  lemma RemoveHeadId(es: seq<Entity>)
    requires DistinctIds(es) && 0 < |es|
    ensures RemoveId(es, es[0].id) == es[1..]
  {
    var tail := es[1..];
    assert forall i | 0 <= i < |tail| :: tail[i].id != es[0].id by {
      forall i | 0 <= i < |tail| ensures tail[i].id != es[0].id {
        assert tail[i] == es[i + 1];
      }
    }
    RemoveAbsentIsNoOp(tail, es[0].id);
    assert es == [es[0]] + tail;
    RemoveIdCons(es[0], tail, es[0].id);
  }

  /** Removing an absent id changes nothing. */
  lemma {:induction false} RemoveAbsentIsNoOp(es: seq<Entity>, id: Json)
    requires forall i | 0 <= i < |es| :: es[i].id != id
    ensures RemoveId(es, id) == es
    decreases |es|
  {
    if |es| > 0 {
      RemoveAbsentIsNoOp(es[1..], id);
    }
  }

  /** Deleting one position keeps the ids distinct and the kind uniform. */
  lemma DeleteAtKeepsValid(es: seq<Entity>, k: nat, kind: Kind)
    requires DistinctIds(es) && OfKind(es, kind) && k < |es|
    ensures DistinctIds(es[..k] + es[k + 1..]) && OfKind(es[..k] + es[k + 1..], kind)
  {
    var r := es[..k] + es[k + 1..];
    assert |r| == |es| - 1;
    assert forall i | 0 <= i < |r| :: r[i] == es[if i < k then i else i + 1];
  }

  /** Removal keeps the ids distinct and the kind uniform. */
  lemma RemoveKeepsValid(s: EntitySet, e: Entity)
    requires Valid(s)
    ensures Valid(Remove(s, e))
  {
    var es := s.entries;
    if k :| 0 <= k < |es| && es[k].id == e.id {
      RemoveDeletesOneEntry(es, k);
      DeleteAtKeepsValid(es, k, s.kind);
    } else {
      RemoveAbsentIsNoOp(es, e.id);
    }
  }

  /** Adding a fresh entity and removing it again restores the set. */
  lemma AddThenRemoveRestores(s: EntitySet, e: Entity)
    requires DistinctIds(s.entries) && Add(s, e).Ok?
    ensures Remove(Add(s, e).value, e) == s
  {
    var es := s.entries + [e];
    assert es[|s.entries|] == e;
    RemoveDeletesOneEntry(es, |s.entries|);
    assert es[..|s.entries|] == s.entries;
  }

  /** After a successful add the entity is a member and is found by its id. */
  lemma AddedEntityIsFound(s: EntitySet, e: Entity)
    requires DistinctIds(s.entries) && Add(s, e).Ok?
    ensures Contains(Add(s, e).value, AnEntity(e))
    ensures GetById(Add(s, e).value, e.id) == Ok(e)
    ensures Len(Add(s, e).value) == Len(s) + 1
  {
    var t := Add(s, e).value;
    assert t.entries[|s.entries|] == e;
    var r := GetById(t, e.id);
    var k :| 0 <= k < |t.entries| && t.entries[k] == r.value
             && forall j | 0 <= j < k :: FieldOf(t.entries[j], ById) != e.id;
    assert k == |s.entries|;
  }

  /** Names may repeat: lookup by name returns the earlier of two entities. */
  lemma NameLookupReturnsFirst(a: Entity, b: Entity)
    requires a.id != b.id && a.name == b.name
    ensures GetByName(EntitySet(a.KindOf(), [a, b]), a.name) == Ok(a)
  {
  }
}

=== FILE: url.dfy ===
/** The part of Python's `urllib.parse.urlparse` that the stream configuration
    relies on: the `path` component of a URL string. It follows `urlsplit`
    (scheme, `//netloc`, the bracket check on the netloc, `#fragment`,
    `?query`) and the `;params` split that `urlparse` applies for the schemes
    listed in `uses_params`. */
module Url {
  import opened Results

  /** `s.find(c, from)`: the first position at or after `from` holding `c`, or −1. */
  function FindFrom(s: string, c: char, from: nat): (r: int)
    ensures r == -1 || (from <= r < |s| && s[r] == c)
    ensures r == -1 <==> forall i | from <= i < |s| :: s[i] != c
    ensures r != -1 ==> forall i | from <= i < r :: s[i] != c
    decreases |s| - from
  {
    if from >= |s| then -1
    else if s[from] == c then from
    else FindFrom(s, c, from + 1)
  }

  /** `s.rfind(c)`: the last position holding `c`, or −1. */
  function RFind(s: string, c: char): (r: int)
    ensures r == -1 || (0 <= r < |s| && s[r] == c)
    ensures forall i | r < i < |s| :: s[i] != c
    decreases |s|
  {
    if |s| == 0 then -1
    else if s[|s| - 1] == c then |s| - 1
    else RFind(s[..|s| - 1], c)
  }

  predicate IsAsciiAlpha(c: char)
  {
    'a' <= c <= 'z' || 'A' <= c <= 'Z'
  }

  /** The characters `scheme_chars` allows in a scheme. */
  predicate IsSchemeChar(c: char)
  {
    IsAsciiAlpha(c) || '0' <= c <= '9' || c == '+' || c == '-' || c == '.'
  }

  function LowerAscii(s: string): (r: string)
    ensures |r| == |s|
  {
    seq(|s|, i requires 0 <= i < |s| => if 'A' <= s[i] <= 'Z' then s[i] - 'A' + 'a' else s[i])
  }

  /** The schemes for which `urlparse` splits off `;params`; `ws` and `wss` are not among them. */
  const UsesParams: seq<string> :=
    ["", "ftp", "hdl", "prospero", "http", "imap", "https", "shttp",
     "rtsp", "rtspu", "sip", "sips", "mms", "sftp", "tel"]

  /** The scheme (lower-cased) and the rest: text before the first `:` is a
      scheme when it is non-empty, starts with an ASCII letter and holds only
      scheme characters. */
  function SplitScheme(url: string): (string, string)
  {
    var i := FindFrom(url, ':', 0);
    if i > 0 && IsAsciiAlpha(url[0]) && forall k | 0 <= k < i :: IsSchemeChar(url[k])
    then (LowerAscii(url[..i]), url[i + 1..])
    else ("", url)
  }

  /** The first position at or after `from` holding one of `cs`, or `|s|`. */
  function FindAnyFrom(s: string, cs: set<char>, from: nat): (r: nat)
    requires from <= |s|
    ensures from <= r <= |s|
    ensures forall i | from <= i < r :: s[i] !in cs
    ensures r < |s| ==> s[r] in cs
    decreases |s| - from
  {
    if from == |s| || s[from] in cs then from else FindAnyFrom(s, cs, from + 1)
  }

  /** `_splitnetloc(url, 2)`: the authority runs from position 2 to the first
      of `/`, `?`, `#` (or the end); the built-in takes the least of the three
      `find` results. */
  function SplitNetloc(url: string): (r: (string, string))
    requires |url| >= 2
    ensures r.0 + r.1 == url[2..]
    ensures '/' !in r.0 && '?' !in r.0 && '#' !in r.0
  {
    var d := FindAnyFrom(url, {'/', '?', '#'}, 2);
    (url[2..d], url[d..])
  }

  /** `s.split(c, 1)[0]` when `c in s`, and `s` otherwise. */
  function CutAt(s: string, c: char): (r: string)
    ensures c !in r
    ensures r <= s
  {
    var i := FindFrom(s, c, 0);
    if i == -1 then s else s[..i]
  }

  /** `_splitparams(url)[0]`, called only when the text holds a `;`: the cut is
      at the first `;` after the last `/`, or at the first `;` when there is no `/`. */
  function StripParams(p: string): (r: string)
    requires ';' in p
    ensures r <= p
  {
    if '/' in p then
      var i := FindFrom(p, ';', RFind(p, '/'));
      if i < 0 then p else p[..i]
    else
      p[..FindFrom(p, ';', 0)]
  }

  /** `urlparse(url).path`; the error is the `ValueError` raised for a netloc
      with an unmatched square bracket. */
  function UrlPath(url: string): (r: Result<string, ()>)
    ensures r.Ok? ==> '?' !in r.value && '#' !in r.value
  {
    var (scheme, rest) := SplitScheme(url);
    var afterNetloc :-
      if |rest| >= 2 && rest[0] == '/' && rest[1] == '/' then
        var (netloc, tail) := SplitNetloc(rest);
        if ('[' in netloc) != (']' in netloc) then Err(()) else Ok(tail)
      else Ok(rest);
    Ok(DropParams(scheme, CutAt(CutAt(afterNetloc, '#'), '?')))
  }

  /** The `;params` step of `urlparse`: applied only for the schemes in
      `uses_params`, and only when the text holds a `;`. */
  function DropParams(scheme: string, p: string): (r: string)
    ensures r <= p
    ensures scheme !in UsesParams || ';' !in p ==> r == p
    ensures scheme in UsesParams ==> r == p[..|p| - |LastSegment(p)|] + CutAt(LastSegment(p), ';')
  {
    if ';' !in p then
      LastSegmentOfPlainPath(p);
      p
    else if scheme in UsesParams then
      StripParamsCutsLastSegment(p);
      StripParams(p)
    else p
  }

  /** `s.find(c, from)` is the search in the suffix from `from`, shifted. */
  lemma FindFromSuffix(s: string, c: char, from: nat)
    requires from <= |s|
    ensures var k := FindFrom(s[from..], c, 0);
            FindFrom(s, c, from) == if k == -1 then -1 else from + k
  {
    var t := s[from..];
    var k := FindFrom(t, c, 0);
    if k == -1 {
      forall i | from <= i < |s| ensures s[i] != c {
        assert s[i] == t[i - from];
      }
    } else {
      forall i | from <= i < from + k ensures s[i] != c {
        assert s[i] == t[i - from];
      }
      assert s[from + k] == t[k];
      FindFromIs(s, c, from, from + k);
    }
  }

  /** `_splitparams` cuts the last `/`-segment at its first `;` and keeps
      everything before that segment. */
  lemma StripParamsCutsLastSegment(p: string)
    requires ';' in p
    ensures StripParams(p) == p[..|p| - |LastSegment(p)|] + CutAt(LastSegment(p), ';')
  {
    var j := RFind(p, '/');
    assert LastSegment(p) == p[j + 1..];
    if '/' in p {
      assert j != -1;
      CutAfterSlash(p, j);
    } else {
      assert j == -1;
      assert p[..0] + CutAt(p, ';') == CutAt(p, ';');
    }
  }

  /** The search for `;` from a `/` at `j` is the cut of the text after it. */
  lemma CutAfterSlash(p: string, j: nat)
    requires j < |p| && p[j] == '/'
    ensures var i := FindFrom(p, ';', j);
            (if i < 0 then p else p[..i]) == p[..j + 1] + CutAt(p[j + 1..], ';')
  {
    assert FindFrom(p, ';', j) == FindFrom(p, ';', j + 1);
    CutFrom(p, ';', j + 1);
  }

  /** Searching from `from` cuts the suffix from `from` and keeps the prefix. */
  lemma CutFrom(p: string, c: char, from: nat)
    requires from <= |p|
    ensures var i := FindFrom(p, c, from);
            (if i < 0 then p else p[..i]) == p[..from] + CutAt(p[from..], c)
  {
    FindFromSuffix(p, c, from);
    if FindFrom(p[from..], c, 0) == -1 {
      CutFromNone(p, c, from);
    } else {
      CutFromSome(p, c, from);
    }
  }

  lemma CutFromNone(p: string, c: char, from: nat)
    requires from <= |p| && FindFrom(p[from..], c, 0) == -1
    ensures p == p[..from] + CutAt(p[from..], c)
  {
    assert p[..from] + p[from..] == p;
  }

  lemma CutFromSome(p: string, c: char, from: nat)
    requires from <= |p| && FindFrom(p[from..], c, 0) != -1
    ensures p[..from + FindFrom(p[from..], c, 0)] == p[..from] + CutAt(p[from..], c)
  {
    PrefixSplits(p, from, FindFrom(p[from..], c, 0));
  }

  lemma PrefixSplits(p: string, from: nat, k: nat)
    requires from + k <= |p|
    ensures p[..from + k] == p[..from] + p[from..][..k]
  {
  }

  /** Without a `;` the text is its own cut. */
  lemma LastSegmentOfPlainPath(p: string)
    requires ';' !in p
    ensures p == p[..|p| - |LastSegment(p)|] + CutAt(LastSegment(p), ';')
  {
    var seg := LastSegment(p);
    assert ';' !in seg by {
      forall i | 0 <= i < |seg| ensures seg[i] != ';' {
        assert seg[i] == p[|p| - |seg| + i];
      }
    }
    assert FindFrom(seg, ';', 0) == -1;
    assert p[..|p| - |seg|] + seg == p;
  }

  /** The path of a URL with an authority, in terms of its parts. */
  lemma UrlPathWithNetloc(url: string, scheme: string, rest: string, netloc: string, tail: string)
    requires SplitScheme(url) == (scheme, rest)
    requires |rest| >= 2 && rest[0] == '/' && rest[1] == '/'
    requires SplitNetloc(rest) == (netloc, tail)
    requires '[' !in netloc && ']' !in netloc
    ensures UrlPath(url) == Ok(DropParams(scheme, CutAt(CutAt(tail, '#'), '?')))
  {
  }

  /** `path.split("/")[-1]`: the text after the last `/`, or all of it when there is none. */
  function LastSegment(path: string): (r: string)
    ensures '/' !in r
    ensures |r| <= |path| && r == path[|path| - |r|..]
    ensures |r| < |path| ==> path[|path| - |r| - 1] == '/'
  {
    path[RFind(path, '/') + 1..]
  }

  // ---------------------------------------------------------------------------
  // Properties
  // ---------------------------------------------------------------------------

  /** The segment after the last `/` is the only suffix free of `/` that starts
      the path or follows a `/`. */
  lemma LastSegmentIsUnique(path: string, pre: string, seg: string)
    requires path == pre + seg && '/' !in seg
    requires |pre| == 0 || pre[|pre| - 1] == '/'
    ensures LastSegment(path) == seg
  {
    assert forall k | 0 <= k < |seg| :: path[|pre| + k] == seg[k];
    assert |pre| > 0 ==> path[|pre| - 1] == '/';
  }

  /** A path ending in `/` has an empty last segment (no error). */
  lemma TrailingSlashGivesEmptySegment(path: string)
    requires |path| > 0 && path[|path| - 1] == '/'
    ensures LastSegment(path) == ""
  {
    LastSegmentIsUnique(path, path, "");
  }

  lemma FindFromIs(s: string, c: char, from: nat, i: nat)
    requires from <= i < |s| && s[i] == c
    requires forall k | from <= k < i :: s[k] != c
    ensures FindFrom(s, c, from) == i
  {
  }

  /** Cutting at `c` where the first `c` directly follows `a`. */
  lemma CutAtBoundary(a: string, b: string, c: char)
    requires c !in a && (|b| == 0 || b[0] == c)
    ensures CutAt(a + b, c) == a
  {
    if |b| > 0 {
      FindFromIs(a + b, c, 0, |a|);
      assert (a + b)[..|a|] == a;
    } else {
      assert a + b == a;
    }
  }

  /** Cutting skips a prefix free of `c`. */
  lemma CutAtSkipsPrefix(a: string, b: string, c: char)
    requires c !in a
    ensures CutAt(a + b, c) == a + CutAt(b, c)
  {
    var i := FindFrom(b, c, 0);
    if i == -1 {
      assert forall k | 0 <= k < |a + b| :: (a + b)[k] != c by {
        forall k | 0 <= k < |a + b| ensures (a + b)[k] != c {
          if k >= |a| { assert (a + b)[k] == b[k - |a|]; }
        }
      }
    } else {
      FindFromIs(a + b, c, 0, |a| + i);
      assert (a + b)[..|a| + i] == a + b[..i];
    }
  }

  /** A valid scheme before the first `:` is split off. */
  lemma SchemeIsSplit(scheme: string, rest: string)
    requires |scheme| > 0 && IsAsciiAlpha(scheme[0])
    requires forall k | 0 <= k < |scheme| :: IsSchemeChar(scheme[k])
    ensures SplitScheme(scheme + ":" + rest) == (LowerAscii(scheme), rest)
  {
    var url := scheme + ":" + rest;
    FindFromIs(url, ':', 0, |scheme|);
    assert url[..|scheme|] == scheme;
    assert url[|scheme| + 1..] == rest;
  }

  /** The authority ends where the path, query or fragment begins. */
  lemma NetlocIsSplit(host: string, pt: string)
    requires forall k | 0 <= k < |host| :: host[k] !in {'/', '?', '#'}
    requires |pt| == 0 || pt[0] in {'/', '?', '#'}
    ensures SplitNetloc("//" + host + pt) == (host, pt)
  {
    var rest := "//" + host + pt;
    var d := FindAnyFrom(rest, {'/', '?', '#'}, 2);
    assert forall k | 2 <= k < 2 + |host| :: rest[k] == host[k - 2];
    assert |pt| > 0 ==> rest[2 + |host|] == pt[0];
    assert d == 2 + |host|;
    assert rest[2..d] == host;
    assert rest[d..] == pt;
  }

  /** Dropping `?query` or `#fragment` after a path that holds neither. */
  lemma QueryAndFragmentAreCut(path: string, tail: string)
    requires '?' !in path && '#' !in path
    requires |tail| == 0 || tail[0] == '?' || tail[0] == '#'
    ensures CutAt(CutAt(path + tail, '#'), '?') == path
  {
    if |tail| > 0 && tail[0] == '?' {
      CutAtSkipsPrefix(path, tail, '#');
      var t := CutAt(tail, '#');
      assert |t| > 0 && t[0] == '?' by {
        assert FindFrom(tail, '#', 0) != 0;
      }
      CutAtBoundary(path, t, '?');
    } else {
      CutAtBoundary(path, tail, '#');
      CutAtBoundary(path, [], '?');
      assert path + [] == path;
    }
  }

  /** For `scheme://host/path` with an optional `?query` or `#fragment`, the
      parsed path is exactly `/path`; a `;` in it survives unless the scheme
      is one of `uses_params`. */
  lemma PathOfPlainUrl(scheme: string, host: string, path: string, tail: string)
    requires |scheme| > 0 && IsAsciiAlpha(scheme[0])
    requires forall k | 0 <= k < |scheme| :: IsSchemeChar(scheme[k])
    requires forall k | 0 <= k < |host| :: host[k] !in {'/', '?', '#', '[', ']'}
    requires |path| == 0 || path[0] == '/'
    requires '?' !in path && '#' !in path
    requires ';' !in path || LowerAscii(scheme) !in UsesParams
    requires |tail| == 0 || tail[0] == '?' || tail[0] == '#'
    ensures UrlPath(scheme + "://" + host + path + tail) == Ok(path)
  {
    var url := scheme + "://" + host + path + tail;
    var rest := "//" + host + (path + tail);
    assert url == scheme + ":" + rest;
    SchemeIsSplit(scheme, rest);
    assert |path + tail| == 0 || (path + tail)[0] in {'/', '?', '#'};
    NetlocIsSplit(host, path + tail);
    assert '[' !in host && ']' !in host;
    UrlPathWithNetloc(url, LowerAscii(scheme), rest, host, path + tail);
    QueryAndFragmentAreCut(path, tail);
  }

  /** An authority holding exactly one kind of square bracket makes the parse
      fail, whatever follows it. */
  lemma UnmatchedBracketIsRejected(scheme: string, host: string, pt: string)
    requires |scheme| > 0 && IsAsciiAlpha(scheme[0])
    requires forall k | 0 <= k < |scheme| :: IsSchemeChar(scheme[k])
    requires forall k | 0 <= k < |host| :: host[k] !in {'/', '?', '#'}
    requires ('[' in host) != (']' in host)
    requires |pt| == 0 || pt[0] in {'/', '?', '#'}
    ensures UrlPath(scheme + "://" + host + pt).Err?
  {
    var rest := "//" + host + pt;
    assert scheme + "://" + host + pt == scheme + ":" + rest;
    SchemeIsSplit(scheme, rest);
    NetlocIsSplit(host, pt);
  }

  /** The path of a typical stream URL, `wss://host/stream/abc123`. */
  lemma StreamUrlExample()
    ensures UrlPath("wss://host/stream/abc123") == Ok("/stream/abc123")
  {
    var scheme, host, path := "wss", "host", "/stream/abc123";
    assert IsAsciiAlpha(scheme[0]);
    assert forall k | 0 <= k < |scheme| :: IsSchemeChar(scheme[k]);
    assert forall k | 0 <= k < |host| :: host[k] !in {'/', '?', '#', '[', ']'};
    assert '?' !in path && '#' !in path && ';' !in path;
    PathOfPlainUrl(scheme, host, path, "");
    StreamUrlSpelling();
  }

  /** The example URL is the concatenation of its parts. */
  lemma StreamUrlSpelling()
    ensures "wss" + "://" + "host" + "/stream/abc123" + "" == "wss://host/stream/abc123"
  {
  }
}
